=== FILE: README.md ===
# WhatsApp multi-session gateway — Dafny model

This project models the core of a WhatsApp gateway that runs many sessions at once.
The gateway is a Node.js service. It keeps one browser-driven WhatsApp client per
client id. It persists each account's lifecycle status, and it accepts outbound
messages over an HTTP API. Those messages go into a delayed job queue, and a worker
delivers them with Fibonacci-spaced retries. Inbound messages are recorded, ping
probes are answered, and inbound messages can be forwarded to an automation webhook.
A periodic monitor reconciles account status with each client's connection state.

Each core source file has its own Dafny module. Three modules more hold shared pieces or join two files: `Wrappers` (`Option` and `Result`), `JsString` and `Worker`.

- `JsString`: the JavaScript string built-ins the core relies on.
  These are `trim`, the `\s` class, `indexOf`, `includes`, `split` and `toLowerCase`.
- `Entities`: the table rows as datatypes. These are message jobs, accounts, inbound
  messages and broadcasts, plus the row a submission creates.
- `Formatting`: `normalizeWaId`, which turns a phone number or chat id into a
  WhatsApp address.
- `Fibonacci`: the retry multiplier. It has a reference function, the loop that
  computes it, and growth lemmas.
- `ConfigService`: the `configs` table as a class whose field is a key-to-nullable-value
  map.
- `Automation`: the per-client and global automation keys, and their resolution with
  fallback. Also the write path and the webhook forwarding decision.
- `Queues`: the job table and the `sendMessage` queue as a class.
  - The worker's settle step is a pure function.
  - A queue-consistency invariant is proved to be preserved by every worker step and
    every submission.
- `ClientManager`: the registry of live clients and the account table, as fields of
  one `Manager` class.
  - It also holds the session-directory listing, the inbound-message table and a log
    of destroyed client objects.
  - Its members are `startClient`, the client event handlers, purge, reconnect,
    discovery and number validation.
- `ConnectionMonitor`: one tick of the monitor. It is a loop over the registered ids,
  proved equal to a map-level specification.
- `Server`: the request logic. This covers the API-key middleware, the start, session
  and reconnect routes, the validate-number route, and `/messages`.
  It also covers `/automation/reply`, the `/inbound` page size, `/broadcasts` and
  broadcast statistics.
- `Worker`: the queue worker wired to the client manager. Before each send it
  calls `getClient`, which may start a client and create its account row.
- `Boot`: start-up. Stored sessions are reconnected first. Then the ids listed in
  `WA_CLIENT_IDS` are auto-started, skipping those already reconnected and those whose
  account is DISCONNECTED.

The model replaces effects with parameters:

- `initOk` is the outcome of `client.initialize()`.
- `SendOutcome` is the outcome of `client.sendMessage`. `Worker.Deliver` folds a throwing
  `getClient` into it.
- `Probe` is what `client.getState()` answers.
- `NumberLookup` and `RegisteredLookup` are the answers of `getNumberId` and
  `isRegisteredUser`.
- `parse` stands for `Number` followed by `Number.isFinite`.
- `now` is the clock.
- `FetchOutcome` is what `fetch` returns for the webhook.

A missing, null or empty request field is the empty string, because the source only
tests such fields for truthiness.

Where the documentation and the code disagree, the model follows the code:

- `fibonacci(2)` is 2, not 1. The loop's first iteration already gives `1 + 1`.
- The retry cap is the `SCHEDULER_MAX_ATTEMPTS` setting, or its environment or default
  value. The worker never reads the row's own `maxAttempts` column. That column only
  records the request's value, or the column default 8.

## Model

| member | source | states |
|---|---|---|
| JsString.Trim | src/utils/formating.js:3 | the result is no longer than the input and starts and ends with a non-whitespace character |
| JsString.TrimPadded | src/whatsapp/clientManager.js:145 | trimming whitespace padding off a word whose ends are not whitespace gives back exactly the word |
| JsString.RemoveWhitespace | src/utils/formating.js:9 | the result has no whitespace, adds no character that was absent, and is the identity on whitespace-free text |
| JsString.RemoveWhitespaceConcat | src/utils/formating.js:9 | removing whitespace distributes over concatenation |
| JsString.IndexOf | src/utils/formating.js:4 | -1 or the position of the first occurrence: every earlier character differs |
| JsString.IncludesIff | src/monitor/connectionMonitor.js:31 | `includes` holds exactly when the needle occurs at some position of the text |
| JsString.Split | src/index.js:30-31 | at least one piece, and no piece contains the separator |
| JsString.JoinSplit | src/index.js:30-31 | joining the pieces of a split with the separator gives back the original string |
| JsString.ToLower | src/whatsapp/clientManager.js:145 | same length; each character is lower-cased in the ASCII range and kept otherwise |
| Entities.NewJob | src/server.js:152 | a submitted row is `queued` with no attempts, no error and no next run; `maxAttempts` is the request's value when truthy, else the column default 8 |
| Formatting.LocalPart | src/utils/formating.js:4-5 | the local part has no `@`, is a prefix of the input, and is the whole input when there is no `@` |
| Formatting.DomainPart | src/utils/formating.js:4-6 | the domain starts with `@`; the input is local part plus domain when it has an `@`, else the domain is `@c.us` |
| Formatting.StripLocal | src/utils/formating.js:9 | one leading `+` is dropped and every whitespace character removed; no new characters appear |
| Formatting.RewriteLocal | src/utils/formating.js:11-18 | `0` followed by a digit becomes `62` and the rest; `8` followed by a digit gets `62` prepended; anything else is unchanged |
| Formatting.NormalizeWaId | src/utils/formating.js:1-2 | the result is null exactly for a falsy (empty) input |
| Formatting.NormalizeSplits | src/utils/formating.js:1-21 | the result splits at its first `@` into the rewritten, whitespace-free local part and the trimmed input's domain |
| Formatting.NormalizedIsTrimmed | src/utils/formating.js:3-21 | a normalised address has no surrounding whitespace |
| Formatting.NormalizeIdempotent | src/utils/formating.js:1-21 | when the stripped local part does not start with `+`, normalising a normalised address changes nothing |
| Formatting.NormalizeClean | src/utils/formating.js:1-21 | an already clean address with a domain is normalised by the local-part rewrite alone |
| Formatting.NormalizeNoDomain | src/utils/formating.js:5-6 | a trimmed input without `@` gets the stripped, rewritten local part and `@c.us` |
| Formatting.NormalizeDoublePlus | src/utils/formating.js:9 | only one leading `+` is removed: `++x` normalises to `+x@c.us` |
| Formatting.NormalizePlusDomain | src/utils/formating.js:9-21 | `+x@c.us` normalises to the rewritten `x` with `@c.us` |
| Formatting.DoublePlusNotIdempotent | src/utils/formating.js:9 | for inputs starting with `++`, normalising twice differs from normalising once |
| Formatting.RewriteFixed | src/utils/formating.js:11-18 | the rewrite is idempotent on local parts that do not start with `+` |
| Fibonacci.Fib | src/queue/fibonacci.js:1-10 | the multiplier is at least 1 for every argument |
| Fibonacci.Fibonacci | src/queue/fibonacci.js:1-10 | the two-variable loop returns the reference value `Fib(n)` |
| Fibonacci.FibMonotone | src/queue/fibonacci.js:1-10 | the multiplier never decreases as the attempt count grows |
| Fibonacci.FibAtLeast | src/queue/fibonacci.js:1-10 | from attempt 1 on, the multiplier is at least the attempt number |
| Fibonacci.FibFirstValues | src/queue/fibonacci.js:1-10 | the first values are 1, 1, 2, 3, 5, 8 |
| ConfigService.ConfigStore.GetConfig | src/config/configService.js:4-9 | a missing row or a null value gives the default; any stored value, even an empty one, is returned |
| ConfigService.ConfigStore.SetConfig | src/config/configService.js:11-19 | the key's row is created or updated, no other key changes, and a later read returns the value written |
| ConfigService.ConfigStore.GetNumberConfig | src/config/configService.js:21-26 | the default when the value is missing, null or not a finite number; otherwise the parsed number |
| Automation.StoredValue | src/utils/automation.js:39-41 | a value counts only when its row exists and holds a non-empty string |
| Automation.KeyFor | src/utils/automation.js:4-7 | a client's key is the global key, `_`, then the id; the empty id names the global key |
| Automation.KeysDistinct | src/utils/automation.js:4-7 | different (field, client) pairs, global keys included, never share a config key |
| Automation.ResolveSources | src/utils/automation.js:32-53 | each field is the client's usable value when there is one, otherwise the global usable value |
| Automation.WriteVisible | src/utils/automation.js:13-30 | after a non-empty value is written for a client's field, that field resolves to it |
| Automation.WriteIsolated | src/utils/automation.js:13-30 | a write to one field of one client leaves the other field, and every other client, unchanged |
| Automation.GetAutomationConfig | src/utils/automation.js:32-53 | the loop over the two keys followed by the global fallbacks computes the specified resolution |
| Automation.SetAutomationConfig | src/utils/automation.js:13-30 | exactly the present fields are upserted under the client's keys, and the answer is the configuration read afterwards |
| Automation.WebhookRequest | src/utils/automation.js:57-61 | no request without a webhook URL; the JSON content type always; the secret header exactly when a secret exists; no other header |
| Automation.SendAutomationInbound | src/utils/automation.js:55-83 | nothing is posted without a URL or a `fetch`; the answer is true exactly when the post got a 2xx response |
| Queues.Settle | src/queue/queues.js:28-57 | success marks the row sent and clears the error; a failure counts an attempt and records the message; a failure with attempts still under the cap is always re-queued after `Fib(attempts) * base` ms, and a failure at the cap fails the row |
| Queues.ThreeFailures | src/queue/queues.js:40-57 | with the default cap of 3, a fresh job that keeps failing waits `b`, then `2b`, then is marked failed after 3 attempts |
| Queues.RetryDelaysGrow | src/queue/queues.js:46-47 | with a non-negative base, consecutive retry delays of one job never shrink |
| Queues.Process | src/queue/queues.js:21-59 | a missing row changes nothing; otherwise the row is replaced by its settled form and a retry entry is appended only when one was scheduled |
| Queues.WorkerStepPreserves | src/queue/queues.js:21-59 | for any send outcome, a worker step keeps the queue consistent: every entry names a queued row, no row has two entries, every queued row has one, nothing is left processing, and queued rows are under the cap |
| Queues.SubmitPreserves | src/queue/queues.js:66-68 | creating a fresh queued row with no attempts and enqueueing it keeps the queue consistent when the cap is positive |
| Queues.JobQueue.CreateJob | src/server.js:152-153 | the new row gets a fresh id and no other row changes |
| Queues.JobQueue.EnqueueMessage | src/queue/queues.js:66-68 | exactly one entry `(dbId, delay)` is appended |
| Queues.JobQueue.ProcessJob | src/queue/queues.js:21-59 | the in-place processor leaves the state that `Process` specifies, with the base delay and cap read from the config table over the environment defaults 1000 and 3 |
| Queues.JobQueue.Work | src/queue/queues.js:21-59 | handing out the k-th entry and processing it is one `WorkerStep` |
| ClientManager.SessionDirNameInjective | src/whatsapp/clientManager.js:281-284 | distinct ids have distinct session directory names |
| ClientManager.GetSessionPath | src/whatsapp/clientManager.js:281-284 | the path is the base, a `/`, then `session-<id>` |
| ClientManager.EntryIdIff | src/whatsapp/clientManager.js:229-232 | a directory entry yields an id exactly when it is a directory named `session-<id>` with a non-empty id |
| ClientManager.SessionIds | src/whatsapp/clientManager.js:229-232 | at most one id per directory entry, and no id is empty |
| ClientManager.SessionIdsIff | src/whatsapp/clientManager.js:224-237 | an id is discovered exactly when a non-empty id has a `session-<id>` directory |
| ClientManager.RemoveNamed | src/whatsapp/clientManager.js:299-303 | exactly the entries with the given name are removed |
| ClientManager.RemoveForgets | src/whatsapp/clientManager.js:298-306 | after the session folder is removed, discovery no longer finds that id and still finds every other id |
| ClientManager.NumberOf | src/whatsapp/clientManager.js:201 | the text `null` for a null id, else the first piece of splitting the id at `@`; it never contains `@` |
| ClientManager.ValidationOf | src/whatsapp/clientManager.js:198-221 | `getNumberId` decides when it does not throw; else `isRegisteredUser` decides when available and not throwing; else the error is rethrown; `wid` is present only for registered numbers |
| ClientManager.ValidatedNumberClean | src/whatsapp/clientManager.js:200-201 | the number passed to `getNumberId` has no whitespace and no `@` |
| ClientManager.InboundRow | src/whatsapp/clientManager.js:133-142 | an audit row exists exactly when `from` is present; it holds the normalised addresses, the body (empty when missing), `fromMe`, and the message timestamp, or null when it is missing or 0 |
| ClientManager.Respond | src/whatsapp/clientManager.js:144-167 | a pong goes to the sender exactly for a not-own ping; a message is forwarded exactly when it is not own and the pong did not throw; own messages trigger neither |
| ClientManager.PingIgnoresPadding | src/whatsapp/clientManager.js:145-146 | surrounding whitespace does not change whether a body is a ping |
| ClientManager.AllowsAutoStart | src/whatsapp/clientManager.js:258-263 | an id without a row may auto-start; an id with a row may exactly when its status is not DISCONNECTED |
| ClientManager.Manager.ListClients | src/whatsapp/clientManager.js:185-187 | the listed ids are exactly the registered ones, and each has an account row |
| ClientManager.Manager.DiscoverStoredSessions | src/whatsapp/clientManager.js:224-237 | discovered ids are exactly the non-empty ids with a session directory, and none at all when the base directory is missing |
| ClientManager.StartedClients | src/whatsapp/clientManager.js:26-176 | after an unforced start, only the started id's registry entry can change; it is present exactly when the id was live, or may auto-start and `initialize()` succeeds |
| ClientManager.EnsuredAccounts | src/whatsapp/clientManager.js:16-24 | ensuring a row keeps every existing row and adds an INITIALIZING row only for a missing id |
| ClientManager.Manager.EnsureAccountRow | src/whatsapp/clientManager.js:16-24 | an existing row is returned untouched; otherwise an INITIALIZING row is created |
| ClientManager.Manager.StartClient | src/whatsapp/clientManager.js:26-176 | a registered client is reused unless forced; a forced start destroys it first; a DISCONNECTED row blocks an unforced start; a client is registered only after `initialize()` succeeds; an unforced start leaves `StartedClients` and `EnsuredAccounts`, so other ids keep their clients and rows; the registry invariant is kept |
| ClientManager.Manager.Launch | src/whatsapp/clientManager.js:173-175 | a failed `initialize()` registers nothing; a successful one registers a new handle |
| ClientManager.Manager.GetClient | src/whatsapp/clientManager.js:178-183 | a registered client is returned as is; otherwise the row is ensured (INITIALIZING when new); a DISCONNECTED row makes the start fail; an allowed start succeeds exactly when `initialize()` does, registering the new handle; the registry and rows end as `StartedClients` and `EnsuredAccounts`, and nothing is destroyed |
| ClientManager.Manager.ValidateWhatsAppNumber | src/whatsapp/clientManager.js:198-221 | for a registered client, or an allowed one whose `initialize()` succeeds, the answer is `ValidationOf` for the input and the lookup outcomes; a DISCONNECTED or failed start fails and registers nothing; the id always ends with a row |
| ClientManager.Manager.OnQr | src/whatsapp/clientManager.js:70-78 | an existing row becomes QR with the code stored; a missing row stays missing |
| ClientManager.Manager.OnAuthenticated | src/whatsapp/clientManager.js:84-91 | an existing row becomes AUTHENTICATED |
| ClientManager.Manager.OnReady | src/whatsapp/clientManager.js:93-102 | an existing row becomes READY with the connection time set and the QR cleared |
| ClientManager.Manager.OnAuthFailure | src/whatsapp/clientManager.js:114-121 | an existing row becomes AUTH_FAILURE |
| ClientManager.Manager.OnDisconnected | src/whatsapp/clientManager.js:104-112 | a disconnect purges the session: no live client, no row and no stored session remain for the id |
| ClientManager.Manager.OnMessage | src/whatsapp/clientManager.js:124-171 | an existing row is marked READY with the message time; the audit row is stored when possible; the pong and the forward follow `Respond` |
| ClientManager.Manager.StoreInbound | src/whatsapp/clientManager.js:133-142 | the inbound table grows by the audit row exactly when one exists |
| ClientManager.Manager.MarkActive | src/whatsapp/clientManager.js:126-131 | an existing row gets the message time and status READY |
| ClientManager.Manager.PurgeSession | src/whatsapp/clientManager.js:286-316 | the live client is destroyed and unregistered, the session folder is removed, the row is deleted, and the answer is true |
| ClientManager.Manager.DestroyRegistered | src/whatsapp/clientManager.js:288-296 | the registered object, if any, is destroyed and the id is unregistered |
| ClientManager.Manager.RemoveSessionDir | src/whatsapp/clientManager.js:298-306 | the id's session directory disappears from the listing, and only that one |
| ClientManager.Manager.ReconnectSession | src/whatsapp/clientManager.js:266-279 | the row is reset to INITIALIZING with no QR (or created); a forced start follows; afterwards auto-start is allowed; the id's old client is always destroyed (logged) and unregistered, and a new one registered exactly when `initialize()` succeeds; no other id changes |
| ClientManager.Manager.ReconnectStoredSessions | src/whatsapp/clientManager.js:240-256 | the started ids are exactly the discovered ids that have a row and whose unforced start succeeds; accounts are unchanged and no live client is replaced |
| ClientManager.Manager.ReconnectOne | src/whatsapp/clientManager.js:244-251 | one unforced start of an id with a row, succeeding exactly when the id is live or allowed and `initialize()` succeeds |
| ConnectionMonitor.ClosedBrowserSessionIff | src/monitor/connectionMonitor.js:31 | the restart fault holds exactly when all three phrases occur in the error message |
| ConnectionMonitor.Reconcile | src/monitor/connectionMonitor.js:18-22 | CONNECTED gives READY, any other state gives DISCONNECTED, and no other column changes |
| ConnectionMonitor.TickAccounts | src/monitor/connectionMonitor.js:8-38 | only rows of registered ids that reported a state change, and they follow `Reconcile`; every other row is kept |
| ConnectionMonitor.TickStep | src/monitor/connectionMonitor.js:11-37 | visiting one more id changes at most that id's row and adds at most that id's fault |
| ConnectionMonitor.CheckOne | src/monitor/connectionMonitor.js:12-36 | one id's row is reconciled when a state is reported; a thrown error is fatal exactly when it shows a closed browser session |
| ConnectionMonitor.Tick | src/monitor/connectionMonitor.js:8-38 | the loop over the registered ids leaves the table `TickAccounts` specifies, and schedules a restart exactly when some id hit the fault |
| Server.KeyDecision | src/server.js:39-49 | public paths pass; any other path passes exactly when a key is configured and the header equals it |
| Server.ApiKeyGate.constructor | src/server.js:33 | the cache starts with the environment's key |
| Server.ApiKeyGate.Admit | src/server.js:33-49 | public paths never load the key; an empty cache is filled from the config table; a cached key is never reloaded; the verdict is `KeyDecision` on the cached key |
| Server.StartRoute | src/server.js:57-71 | a DISCONNECTED row answers 409 and starts nothing; otherwise 200 exactly when the start succeeds, with the client registered, else 400; the registry and rows end as `StartedClients` and `EnsuredAccounts`, so other ids are untouched |
| Server.ReconnectRoute | src/server.js:74-82 | the forced reconnect answers 200 with the reset INITIALIZING row exactly when `initialize()` succeeds, else 400; auto-start is allowed afterwards; the old client is destroyed; only that id's row and client change |
| Server.CreateSessionRoute | src/server.js:85-95 | 400 without a client id; 409 for a DISCONNECTED row; 201 with the row exactly when the start succeeds; a started session changes only its own registry entry and row |
| Server.NumberParam | src/server.js:120 | the first given of `number`, `phone` and `to`, trimmed, so a non-empty result has no surrounding whitespace |
| Server.ValidateNumberRoute | src/server.js:118-129 | 400 without a number, on a failed start or on a failed lookup; otherwise 200 with the validation of the trimmed number; with a number given, only the id's registry entry and row can change |
| Server.Submit | src/server.js:152-154 | one new row under a fresh id and one entry with delay 0 |
| Server.PostMessage | src/server.js:146-156 | 400 unless client id, recipient and text are all given; 201 exactly when the start succeeds, with one new queued row and one entry and the client registered; otherwise no row and no entry; only the id's registry entry and row can change |
| Server.PostConfig | src/server.js:132-137 | 400 without a key and nothing stored; otherwise 200 and the key holds the value's text, `undefined` when it is missing, which a later read returns |
| Server.AutomationReply | src/server.js:182-200 | 400 when client id, recipient or text is missing; 401 unless a secret resolves for the client and the header equals it; 201, with the client registered and one new queued row and entry, exactly when the fields are present, the secret matches and the start succeeds; else 400 and nothing is written; the manager changes only after the secret check, and only for that id |
| Server.InboundTake | src/server.js:206 | 50 when no limit is given, the parsed limit capped at 200 otherwise, and never above 200 |
| Server.BroadcastStore.Create | src/server.js:222-223 | the campaign row gets a fresh id and no other row changes |
| Server.BroadcastStore.SetStatus | src/server.js:231-232 | only the status of that campaign changes |
| Server.EntriesFor | src/server.js:225-229 | one entry per id, in order, each with delay 0 |
| Server.FanOut | src/server.js:225-229 | one fresh, distinct queued row per recipient, in order, carrying the broadcast id; each is enqueued once with delay 0; earlier rows are untouched |
| Server.CreateBroadcast | src/server.js:222-232 | a new campaign row ends `sending`, with the fan-out described by `Campaign` |
| Server.PostBroadcast | src/server.js:213-234 | 400 without client id, text or recipients; 201 exactly when the start succeeds, with the campaign created and the client registered; otherwise nothing is written; the manager changes only for that id |
| Server.CampaignPreserves | src/server.js:213-234 | a broadcast keeps the queue consistent |
| Server.CountStatus | src/server.js:243-246 | a status count never exceeds the number of jobs |
| Server.StatsPartition | src/server.js:243-246 | the four status counts of any job list add up to its length |
| Server.BroadcastStats | src/server.js:243-247 | the reported counts add up to the number of jobs of the broadcast |
| Server.FreshStats | src/server.js:236-248 | a broadcast whose jobs are all queued reports them all as queued and nothing else |
| Boot.TrimmedNonEmpty | src/index.js:30-33 | no more ids than pieces, and no id is empty |
| Boot.ParseEnvIds | src/index.js:30-33 | no empty id and no more ids than comma-separated pieces; a value without a comma gives its trim, or nothing when that is empty |
| Boot.TrimmedNonEmptyIff | src/index.js:30-33 | an id is kept exactly when it is non-empty and is the trim of some piece |
| Boot.ParsedIds | src/index.js:30-33 | every parsed id is non-empty, has no comma and has no surrounding whitespace |
| Boot.ToStart | src/index.js:34-42 | an id is auto-started exactly when it is listed, was not reconnected and is not DISCONNECTED |
| Boot.AutoStartEnvClients | src/index.js:34-42 | the loop invokes the start for exactly `ToStart` of the table before the loop; live clients are kept; a client is registered whenever its `initialize()` succeeds; every existing row is kept and each invoked id without a row gets an INITIALIZING one |
| Boot.StartOne | src/index.js:41 | an unforced start keeps every row's DISCONNECTED verdict and every live client, and leaves the table `EnsuredAccounts` |
| Boot.Bootstrap | src/index.js:21-42 | the reconnected ids are the stored sessions with a row that start; then the env ids follow `ToStart` against them; no live client is replaced; every reconnected id, and every invoked id whose `initialize()` succeeds, is registered; every old row is kept and each invoked id without a row gets an INITIALIZING one; nothing is destroyed |
| Worker.DeliveryOutcome | src/queue/queues.js:31-40 | the send's outcome once the client was obtained; a failed `getClient` becomes a failure carrying its error message |
| Worker.Deliver | src/queue/queues.js:21-59 | a missing row leaves the manager alone; otherwise `getClient` ensures the job's account row (a purged id gets a new INITIALIZING row), the client is registered exactly when it was live or may start and starts, and the queue takes the worker step with the combined outcome |

## Left out

- BullMQ and Redis delivery: the queue is a sequence of `(dbId, delay)` entries. Delays are recorded, not waited on. Any entry may be handed to the worker, and BullMQ's own retries and `failed` event are not modelled.
- The whatsapp-web.js `Client`: puppeteer options, `dataPath`, LocalAuth storage, the `loading_screen` log and the actual message sending are not modelled. Outcomes come in as parameters.
- `destroy()` errors are ignored in the source. Destroyed clients are only logged, in the `destroyed` sequence.
- Concurrency: every `async` handler runs to completion in one step. Event handlers interleaving with requests are not modelled. Neither are two requests racing in `startClient`, nor the un-awaited `startClient` calls of the boot loop, which are modelled as sequential.
- File-system errors and `path.join` normalisation: discovery sees a listing of directory entries. Removal deletes the entry named `session-<id>`. `discoverStoredSessions` catching an error is not modelled.
- The `WWEBJS_DATA_PATH`/`SESSIONS_DIR` choice of base directory: the base is a parameter of `GetSessionPath`.
- Timers: `setTimeout`/`setInterval` of the monitor, and `process.exit(1)`, which `Tick` reports as `fatal`.
- The `SCHEDULER_CONNECTION_CHECK_MS` interval.
- JavaScript numbers:
  - NaN, infinities and fractions are not modelled.
  - Env and request numbers are `Option<int>`, where None means unset, empty or not a number.
  - A non-numeric `SCHEDULER_BASE_DELAY_MS` or `SCHEDULER_MAX_ATTEMPTS` in the environment (NaN) is not modelled.
  - `/inbound` with a non-numeric limit answers None (NaN).
- Dates: timestamps are integers supplied by the caller.
- `toLowerCase` outside ASCII: letters outside A–Z are kept as they are. `\s` and `trim` use the ECMAScript whitespace and line-terminator set.
- Express, swagger and the response envelope: replies are status codes only, and no JSON bodies are built.
- Routes with no logic beyond a database read are not modelled. These are `GET /health`, `/openapi.json`, `/docs`, `GET /accounts`, `GET /accounts/:clientId/qr`, `GET /config/:key`, `GET /jobs/:id` and `GET /automation/config/:clientId`.
- `Server.PostConfig`: the request value is text or missing. A JSON `null` (stored as the four-character text `null`) or a number (stored as its decimal text) is not distinguished.
- `POST /automation/config` is `Automation.SetAutomationConfig` itself, and its request-body check is not modelled separately.
- `DELETE /accounts/:clientId` and `DELETE /sessions/:clientId` answer 200 after `purgeSession`, which never throws in this model. They are covered by `ClientManager.Manager.PurgeSession`.
- `/inbound` itself: the query (filter by client, newest first) is not modelled, only its page size.
- `GET /broadcasts/:id` is modelled only as counting over the broadcast's jobs. Looking up the campaign (404 when missing) and selecting the jobs by `broadcastId` are not modelled.
- Inbound rows whose `from` is missing: the `from` column is NOT NULL, so such a save fails. The model stores no row and neither answers nor forwards, because the handler's try block ends there.
- `fetch` network I/O and the response body text: `SendAutomationInbound` returns the request it would post and the boolean answer.
- Logging (`log`, `error`) is not modelled.
- The `ping` reply target is the raw `message.from`, not the normalised one, as in the source.
- `Server.AutomationReply`: compares the `x-automation-secret` header with the resolved secret. `String(secret)` is the identity here, because config values are strings.
- `Server.ApiKeyGate.Admit`: a `getConfig` that throws while loading the key is not modelled. The source swallows that error and behaves as if no key were stored.
- `Server.PostBroadcast`: a `recipients` value that is not an array is not modelled, because recipients are a sequence here. Only the empty list answers 400 for that reason.

=== FILE: automation.dfy ===
/**
 * Automation settings kept in the `configs` table: a webhook URL and a shared
 * secret, stored per client under `AUTO_WEBHOOK_<id>` / `AUTO_SECRET_<id>` or
 * globally under `AUTO_WEBHOOK` / `AUTO_SECRET`, and the decision whether an
 * inbound message is forwarded to the webhook.
 */
module Automation {
  import opened Wrappers
  import opened ConfigService

  datatype Field = Webhook | Secret

  const WebhookPrefix: string := "AUTO_WEBHOOK_"
  const SecretPrefix: string := "AUTO_SECRET_"
  const GlobalWebhook: string := "AUTO_WEBHOOK"
  const GlobalSecret: string := "AUTO_SECRET"

  function GlobalKey(f: Field): string {
    match f
    case Webhook => GlobalWebhook
    case Secret => GlobalSecret
  }

  /** The key of field `f` for `clientId`; the empty id (every falsy id) names the global key. */
  function KeyFor(f: Field, clientId: string): (k: string)
    ensures k == if clientId == "" then GlobalKey(f) else GlobalKey(f) + "_" + clientId
  {
    if clientId == "" then GlobalKey(f)
    else match f
      case Webhook => WebhookPrefix + clientId
      case Secret => SecretPrefix + clientId
  }

  /** The resolved settings; null where nothing usable is stored. */
  datatype AutomationConfig = AutomationConfig(webhookUrl: Option<string>, secret: Option<string>) {
    function Get(f: Field): Option<string> {
      match f
      case Webhook => webhookUrl
      case Secret => secret
    }
  }

  /** `row && row.value`: a stored value counts only when the row exists and its value is a non-empty string. */
  function StoredValue(rows: map<string, Option<string>>, key: string): (v: Option<string>)
    ensures v.Some? <==> key in rows && rows[key].Some? && rows[key].value != ""
    ensures v.Some? ==> v == rows[key]
  {
    if key in rows && rows[key].Some? && rows[key].value != "" then rows[key] else None
  }

  /** One field of `getAutomationConfig`: the client's own value, else (for a real client id) the global one. */
  function Resolve(rows: map<string, Option<string>>, clientId: string, f: Field): Option<string> {
    var own := StoredValue(rows, KeyFor(f, clientId));
    if clientId != "" && own.None? then StoredValue(rows, GlobalKey(f)) else own
  }

  /** What `getAutomationConfig(clientId)` returns for a table content. */
  function AutomationConfigOf(rows: map<string, Option<string>>, clientId: string): AutomationConfig {
    AutomationConfig(Resolve(rows, clientId, Webhook), Resolve(rows, clientId, Secret))
  }

  /** Different (field, client) pairs never share a key: webhook and secret keys differ at index 5, and ids are suffixes. */
  lemma KeysDistinct(f: Field, c: string, g: Field, d: string)
    requires f != g || c != d
    ensures KeyFor(f, c) != KeyFor(g, d)
  {
    var kf, kg := KeyFor(f, c), KeyFor(g, d);
    assert kf[5] == (if f == Webhook then 'W' else 'S');
    assert kg[5] == (if g == Webhook then 'W' else 'S');
    if f == g && c != d {
      if c == "" || d == "" {
        assert |kf| != |kg|;
      } else {
        var p := if f == Webhook then WebhookPrefix else SecretPrefix;
        assert kf == p + c && kg == p + d;
        assert kf[|p|..] == c && kg[|p|..] == d;
      }
    }
  }

  /**
   * The answer to `getAutomationConfig` always comes from the client's own keys or
   * the global keys: with a client id, each field is the client's usable value when
   * there is one and the global usable value otherwise; without one, it is the global value.
   */
  lemma ResolveSources(rows: map<string, Option<string>>, clientId: string, f: Field)
    ensures clientId == "" ==> Resolve(rows, clientId, f) == StoredValue(rows, GlobalKey(f))
    ensures StoredValue(rows, KeyFor(f, clientId)).Some? ==> Resolve(rows, clientId, f) == StoredValue(rows, KeyFor(f, clientId))
    ensures StoredValue(rows, KeyFor(f, clientId)).None? ==> Resolve(rows, clientId, f) == StoredValue(rows, GlobalKey(f))
  {
  }

  /** Writing a non-empty value for one field of a client makes that client resolve to it. */
  lemma WriteVisible(rows: map<string, Option<string>>, clientId: string, f: Field, v: string)
    requires v != ""
    ensures AutomationConfigOf(rows[KeyFor(f, clientId) := Some(v)], clientId).Get(f) == Some(v)
  {
  }

  /** A write to one (field, client) key leaves the other field of that client, and both fields of every other client, unchanged. */
  lemma {:induction false} WriteIsolated(rows: map<string, Option<string>>, c: string, f: Field, v: Option<string>, d: string, g: Field)
    requires f != g || (c != d && c != "" && d != "")
    ensures Resolve(rows[KeyFor(f, c) := v], d, g) == Resolve(rows, d, g)
  {
    KeysDistinct(f, c, g, d);
    KeysDistinct(f, c, g, "");
  }

  /** `getAutomationConfig(clientId)`: read the client's two keys in a loop, then fall back per field to the global key. */
  method GetAutomationConfig(store: ConfigStore, clientId: string) returns (cfg: AutomationConfig)
    ensures cfg == AutomationConfigOf(store.rows, clientId)
  {
    var keys := [(KeyFor(Webhook, clientId), Webhook), (KeyFor(Secret, clientId), Secret)];
    var webhookUrl, secret := None, None;
    for i := 0 to |keys|
      invariant webhookUrl == (if i > 0 then StoredValue(store.rows, KeyFor(Webhook, clientId)) else None)
      invariant secret == (if i > 1 then StoredValue(store.rows, KeyFor(Secret, clientId)) else None)
    {
      var (k, field) := keys[i];
      if k in store.rows && store.rows[k].Some? && store.rows[k].value != "" {
        if field == Webhook {
          webhookUrl := store.rows[k];
        } else {
          secret := store.rows[k];
        }
      }
    }
    if clientId != "" && webhookUrl.None? {
      if GlobalWebhook in store.rows && store.rows[GlobalWebhook].Some? && store.rows[GlobalWebhook].value != "" {
        webhookUrl := store.rows[GlobalWebhook];
      }
    }
    if clientId != "" && secret.None? {
      if GlobalSecret in store.rows && store.rows[GlobalSecret].Some? && store.rows[GlobalSecret].value != "" {
        secret := store.rows[GlobalSecret];
      }
    }
    cfg := AutomationConfig(webhookUrl, secret);
  }

  /** A request-body field of `setAutomationConfig`: absent (`undefined`) or a value, possibly null. */
  datatype Update = Unchanged | Write(value: Option<string>)

  function Apply(rows: map<string, Option<string>>, key: string, u: Update): map<string, Option<string>> {
    match u
    case Unchanged => rows
    case Write(v) => rows[key := v]
  }

  /**
   * `setAutomationConfig(clientId, {webhookUrl, secret})`: upsert the fields that
   * are present, under the client's keys, and answer with the configuration read afterwards.
   */
  method SetAutomationConfig(store: ConfigStore, clientId: string, webhookUrl: Update, secret: Update) returns (cfg: AutomationConfig)
    modifies store
    ensures store.rows == Apply(Apply(old(store.rows), KeyFor(Webhook, clientId), webhookUrl), KeyFor(Secret, clientId), secret)
    ensures forall k :: k != KeyFor(Webhook, clientId) && k != KeyFor(Secret, clientId) ==>
      (k in store.rows <==> k in old(store.rows)) && (k in store.rows ==> store.rows[k] == old(store.rows)[k])
    ensures cfg == AutomationConfigOf(store.rows, clientId)
  {
    if webhookUrl.Write? {
      var _ := store.SetConfig(KeyFor(Webhook, clientId), webhookUrl.value);
    }
    if secret.Write? {
      var _ := store.SetConfig(KeyFor(Secret, clientId), secret.value);
    }
    cfg := GetAutomationConfig(store, clientId);
  }

  /** The POST `sendAutomationInbound` would issue: target URL and headers. */
  datatype WebhookPost = WebhookPost(url: string, headers: map<string, string>)

  /** The request for a resolved configuration: none without a webhook URL; the secret header only when a secret exists. */
  function WebhookRequest(cfg: AutomationConfig): (r: Option<WebhookPost>)
    ensures r.None? <==> cfg.webhookUrl.None?
    ensures r.Some? ==> r.value.url == cfg.webhookUrl.value
    ensures r.Some? ==> "content-type" in r.value.headers && r.value.headers["content-type"] == "application/json"
    ensures r.Some? ==> ("x-automation-secret" in r.value.headers <==> cfg.secret.Some?)
    ensures r.Some? && cfg.secret.Some? ==> r.value.headers["x-automation-secret"] == cfg.secret.value
    ensures r.Some? ==> r.value.headers.Keys <= {"content-type", "x-automation-secret"}
  {
    if cfg.webhookUrl.None? then None
    else
      var base := map["content-type" := "application/json"];
      var headers := if cfg.secret.Some? then base["x-automation-secret" := cfg.secret.value] else base;
      Some(WebhookPost(cfg.webhookUrl.value, headers))
  }

  /** How the webhook call ended: an HTTP response (2xx or not), or a thrown error. */
  datatype FetchOutcome = Responded(ok: bool) | Threw

  /** Which request was issued, and the boolean `sendAutomationInbound` returns. */
  datatype Delivery = Delivery(posted: Option<WebhookPost>, ok: bool)

  /**
   * `sendAutomationInbound`: nothing is posted without a webhook URL or without a
   * `fetch`; otherwise the request is posted and the answer is whether it got a 2xx.
   */
  function SendAutomationInbound(cfg: AutomationConfig, fetchAvailable: bool, outcome: FetchOutcome): (d: Delivery)
    ensures d.posted.Some? <==> cfg.webhookUrl.Some? && fetchAvailable
    ensures d.posted.Some? ==> d.posted == WebhookRequest(cfg)
    ensures d.ok <==> d.posted.Some? && outcome == Responded(true)
  {
    var req := WebhookRequest(cfg);
    if req.None? || !fetchAvailable then Delivery(None, false)
    else match outcome
      case Responded(ok) => Delivery(req, ok)
      case Threw => Delivery(req, false)
  }
}

=== FILE: boot.dfy ===
/**
 * Start-up: stored sessions are reconnected first, then every client id listed in
 * `WA_CLIENT_IDS` that was not reconnected and whose account is not DISCONNECTED
 * gets an unforced start.
 */
module Boot {
  import opened Wrappers
  import opened JsString
  import opened Entities
  import opened ClientManager

  /** `.map(s => s.trim()).filter(Boolean)` over the comma-separated pieces. */
  function TrimmedNonEmpty(parts: seq<string>): (ids: seq<string>)
    ensures |ids| <= |parts|
    ensures forall k :: 0 <= k < |ids| ==> ids[k] != ""
  {
    if parts == [] then []
    else (if Trim(parts[0]) != "" then [Trim(parts[0])] else []) + TrimmedNonEmpty(parts[1..])
  }

  /** The ids of `WA_CLIENT_IDS` (unset is the empty string). */
  function ParseEnvIds(env: string): (ids: seq<string>)
    ensures forall k :: 0 <= k < |ids| ==> ids[k] != ""
    ensures |ids| <= |Split(env, ',')|
    ensures ',' !in env ==> ids == (if Trim(env) == "" then [] else [Trim(env)])
  {
    var parts := Split(env, ',');
    assert ',' !in env ==> parts == [env] && parts[1..] == [];
    TrimmedNonEmpty(parts)
  }

  /** An id survives exactly when it is the non-empty trim of some piece. */
  lemma {:induction false} TrimmedNonEmptyIff(parts: seq<string>, id: string)
    ensures id in TrimmedNonEmpty(parts) <==> id != "" && exists k :: 0 <= k < |parts| && Trim(parts[k]) == id
  {
    if parts != [] {
      TrimmedNonEmptyIff(parts[1..], id);
      if id != "" && Trim(parts[0]) != id && (exists k :: 0 <= k < |parts| && Trim(parts[k]) == id) {
        var k :| 0 <= k < |parts| && Trim(parts[k]) == id;
        assert parts[1..][k - 1] == parts[k];
      }
    }
  }

  /** Every parsed id is non-empty, holds no comma and starts and ends with a non-whitespace character. */
  lemma ParsedIds(env: string, id: string)
    requires id in ParseEnvIds(env)
    ensures id != "" && ',' !in id && !IsWhitespace(id[0]) && !IsWhitespace(id[|id| - 1])
  {
    var parts := Split(env, ',');
    TrimmedNonEmptyIff(parts, id);
    var k :| 0 <= k < |parts| && Trim(parts[k]) == id;
    TrimKeepsOut(parts[k], ',');
  }

  /** Trimming only removes characters. */
  lemma TrimKeepsOut(s: string, c: char)
    requires c !in s
    ensures c !in Trim(s)
  {
    TrimSlice(s);
  }

  /** The env ids the start-up loop starts, in order: not already reconnected and allowed to auto-start. */
  function ToStart(envIds: seq<string>, discovered: seq<string>, accounts: map<string, Account>): (ids: seq<string>)
    ensures forall id :: id in ids <==> id in envIds && id !in discovered && AllowsAutoStart(accounts, id)
  {
    if envIds == [] then []
    else
      var id := envIds[|envIds| - 1];
      var init := ToStart(envIds[..|envIds| - 1], discovered, accounts);
      assert forall x :: x in envIds <==> x in envIds[..|envIds| - 1] || x == id by {
        assert envIds == envIds[..|envIds| - 1] + [id];
      }
      if id !in discovered && AllowsAutoStart(accounts, id) then init + [id] else init
  }

  /**
   * The auto-start loop. Each unforced start leaves the status of every existing row as
   * it is and only adds INITIALIZING rows, so the DISCONNECTED test on the current table
   * agrees with the one on the table the loop began with.
   */
  method AutoStartEnvClients(cm: Manager, envIds: seq<string>, discovered: seq<string>, initOk: string -> bool)
    returns (invoked: seq<string>)
    requires cm.Valid()
    modifies cm`clients, cm`nextSerial, cm`destroyed, cm`accounts
    ensures cm.Valid()
    ensures invoked == ToStart(envIds, discovered, old(cm.accounts))
    ensures forall id :: id in old(cm.clients) ==> id in cm.clients && cm.clients[id] == old(cm.clients)[id]
    ensures forall id :: id in cm.clients ==> id in old(cm.clients) || id in invoked
    ensures forall id :: id in invoked && initOk(id) ==> id in cm.clients
    ensures forall id :: id in cm.accounts <==> id in old(cm.accounts) || id in invoked
    ensures forall id :: id in old(cm.accounts) ==> cm.accounts[id] == old(cm.accounts)[id]
    ensures forall id :: id in cm.accounts && id !in old(cm.accounts) ==> cm.accounts[id] == FreshAccount
    ensures cm.destroyed == old(cm.destroyed)
  {
    invoked := [];
    for i := 0 to |envIds|
      invariant cm.Valid()
      invariant forall id :: AllowsAutoStart(cm.accounts, id) == AllowsAutoStart(old(cm.accounts), id)
      invariant forall id :: id in old(cm.clients) ==> id in cm.clients && cm.clients[id] == old(cm.clients)[id]
      invariant forall id :: id in cm.clients ==> id in old(cm.clients) || id in invoked
      invariant forall id :: id in invoked && initOk(id) ==> id in cm.clients
      invariant invoked == ToStart(envIds[..i], discovered, old(cm.accounts))
      invariant forall id :: id in cm.accounts <==> id in old(cm.accounts) || id in invoked
      invariant forall id :: id in old(cm.accounts) ==> cm.accounts[id] == old(cm.accounts)[id]
      invariant forall id :: id in cm.accounts && id !in old(cm.accounts) ==> cm.accounts[id] == FreshAccount
      invariant cm.destroyed == old(cm.destroyed)
    {
      var id := envIds[i];
      assert envIds[..i + 1][..i] == envIds[..i];
      if id in discovered {
        continue;
      }
      if !AllowsAutoStart(cm.accounts, id) {
        continue;
      }
      StartOne(cm, id, initOk(id));
      invoked := invoked + [id];
    }
    assert envIds[..|envIds|] == envIds;
  }

  /** `startClient(id)` from the auto-start loop, its outcome ignored. */
  method StartOne(cm: Manager, id: string, initOk: bool)
    requires cm.Valid() && AllowsAutoStart(cm.accounts, id)
    modifies cm`clients, cm`nextSerial, cm`destroyed, cm`accounts
    ensures cm.Valid()
    ensures forall x :: AllowsAutoStart(cm.accounts, x) == AllowsAutoStart(old(cm.accounts), x)
    ensures forall x :: x in old(cm.clients) ==> x in cm.clients && cm.clients[x] == old(cm.clients)[x]
    ensures forall x :: x in cm.clients ==> x in old(cm.clients) || x == id
    ensures initOk ==> id in cm.clients
    ensures cm.accounts == EnsuredAccounts(old(cm.accounts), id)
    ensures cm.destroyed == old(cm.destroyed)
  {
    var _ := cm.StartClient(id, false, initOk);
  }

  /**
   * `bootstrap()` after the database is up: reconnect the stored sessions, then
   * auto-start the env ids that were not among them and are not DISCONNECTED.
   */
  method Bootstrap(cm: Manager, env: string, initOk: string -> bool) returns (reconnected: seq<string>, invoked: seq<string>)
    requires cm.Valid()
    modifies cm`clients, cm`nextSerial, cm`destroyed, cm`accounts
    ensures cm.Valid()
    ensures forall id :: id in reconnected <==>
      id in old(cm.DiscoverStoredSessions()) && id in old(cm.accounts)
      && (id in old(cm.clients) || (AllowsAutoStart(old(cm.accounts), id) && initOk(id)))
    ensures invoked == ToStart(ParseEnvIds(env), reconnected, old(cm.accounts))
    ensures forall id :: id in old(cm.clients) ==> id in cm.clients && cm.clients[id] == old(cm.clients)[id]
    ensures forall id :: id in cm.clients ==> id in old(cm.clients) || id in reconnected || id in invoked
    ensures forall id :: id in reconnected ==> id in cm.clients
    ensures forall id :: id in invoked && initOk(id) ==> id in cm.clients
    ensures forall id :: id in cm.accounts <==> id in old(cm.accounts) || id in invoked
    ensures forall id :: id in old(cm.accounts) ==> cm.accounts[id] == old(cm.accounts)[id]
    ensures forall id :: id in cm.accounts && id !in old(cm.accounts) ==> cm.accounts[id] == FreshAccount
    ensures cm.destroyed == old(cm.destroyed)
  {
    reconnected := cm.ReconnectStoredSessions(initOk);
    invoked := AutoStartEnvClients(cm, ParseEnvIds(env), reconnected, initOk);
  }
}

=== FILE: clientmanager.dfy ===
/**
 * The session manager: the in-memory registry of live chat clients, the
 * `wa_accounts` rows that record each client id's lifecycle, the on-disk
 * session directories, and the transitions the client's events cause.
 * A client object is a `Handle`; its `initialize()` outcome, its number
 * lookups and the file system are parameters or fields of the model.
 */
module ClientManager {
  import opened Wrappers
  import opened JsString
  import opened Entities
  import opened Formatting

  /** A client object; the serial tells objects apart. */
  datatype Handle = Handle(serial: nat)

  /** Why `startClient` threw: the row is DISCONNECTED, or `initialize()` failed. */
  datatype StartError = SessionDisconnected | InitializeFailed

  /** An entry of the sessions base directory. */
  datatype DirEntry = DirEntry(name: string, isDirectory: bool)

  /** A message as the client delivers it; "" stands for a missing `from`, `to` or `body`. */
  datatype IncomingMessage = IncomingMessage(from: string, to: string, body: string, fromMe: bool, timestamp: Option<int>)

  const SessionPrefix: string := "session-"

  /** The directory LocalAuth keeps a client's session in. */
  function SessionDirName(clientId: string): string {
    SessionPrefix + clientId
  }

  lemma SessionDirNameInjective(a: string, b: string)
    requires SessionDirName(a) == SessionDirName(b)
    ensures a == b
  {
    assert a == SessionDirName(a)[|SessionPrefix|..];
    assert b == SessionDirName(b)[|SessionPrefix|..];
  }

  /** `getSessionPath(clientId)`: the `session-<id>` child of the sessions base directory. */
  function GetSessionPath(base: string, clientId: string): (p: string)
    ensures StartsWith(p, base) && |p| > |base| && p[|base|] == '/'
    ensures p[|base| + 1..] == SessionDirName(clientId)
  {
    base + "/" + SessionDirName(clientId)
  }

  /** The client id one directory entry contributes to discovery: none, or its name without the `session-` prefix. */
  function EntryId(e: DirEntry): seq<string> {
    if e.isDirectory && StartsWith(e.name, SessionPrefix) && |e.name| > |SessionPrefix| then [e.name[|SessionPrefix|..]] else []
  }

  /** The filter/map/filter chain of `discoverStoredSessions` over a directory listing. */
  function SessionIds(entries: seq<DirEntry>): (ids: seq<string>)
    ensures |ids| <= |entries|
    ensures forall k :: 0 <= k < |ids| ==> ids[k] != ""
  {
    if entries == [] then [] else EntryId(entries[0]) + SessionIds(entries[1..])
  }

  lemma EntryIdIff(e: DirEntry, id: string)
    ensures id in EntryId(e) <==> id != "" && e == DirEntry(SessionDirName(id), true)
  {
    if e == DirEntry(SessionDirName(id), true) && id != "" {
      assert e.name[..|SessionPrefix|] == SessionPrefix;
      assert e.name[|SessionPrefix|..] == id;
    }
    if id in EntryId(e) {
      assert e.name == e.name[..|SessionPrefix|] + e.name[|SessionPrefix|..];
    }
  }

  /** An id is discovered exactly when it is non-empty and a directory named `session-<id>` exists. */
  lemma {:induction false} SessionIdsIff(entries: seq<DirEntry>, id: string)
    ensures id in SessionIds(entries) <==> id != "" && DirEntry(SessionDirName(id), true) in entries
  {
    if entries != [] {
      EntryIdIff(entries[0], id);
      SessionIdsIff(entries[1..], id);
      assert entries == [entries[0]] + entries[1..];
    }
  }

  /** `fs.rmSync(session-<id>)`: the listing without the entries of that name. */
  function RemoveNamed(entries: seq<DirEntry>, name: string): (r: seq<DirEntry>)
    ensures forall e :: e in r <==> e in entries && e.name != name
  {
    if entries == [] then []
    else (if entries[0].name == name then [] else [entries[0]]) + RemoveNamed(entries[1..], name)
  }

  /** Removing `session-<id>` forgets exactly that id. */
  lemma RemoveForgets(entries: seq<DirEntry>, id: string, other: string)
    ensures other in SessionIds(RemoveNamed(entries, SessionDirName(id))) <==> other in SessionIds(entries) && other != id
  {
    SessionIdsIff(entries, other);
    SessionIdsIff(RemoveNamed(entries, SessionDirName(id)), other);
    if other != id && SessionDirName(other) == SessionDirName(id) {
      SessionDirNameInjective(other, id);
    }
  }

  /** The ping probe: the trimmed, ASCII-lower-cased body is `ping` or `!ping`. */
  predicate IsPingCommand(body: string) {
    var text := ToLower(Trim(body));
    text == "ping" || text == "!ping"
  }

  /** The outcome of `getNumberId(number)`: a serialized id, null, or a thrown error. */
  datatype NumberLookup = Found(wid: string) | NotFound | LookupThrew
  /** The fallback `isRegisteredUser(waId)`: unavailable, a verdict, or a thrown error. */
  datatype RegisteredLookup = NoFallback | Registered(ok: bool) | FallbackThrew

  /** What `validateWhatsAppNumber` answers. */
  datatype Validation = Validation(input: string, number: string, waId: Option<string>, isRegistered: bool, wid: Option<string>)

  /** `String(waId).split('@')[0]`: the local part of the normalized id, or the text `null`. */
  function NumberOf(waId: Option<string>): (number: string)
    ensures Lacks(number, '@')
    ensures waId.None? ==> number == "null"
    ensures waId.Some? ==> number == Split(waId.value, '@')[0]
  {
    if waId.None? then "null" else LocalPart(waId.value)
  }

  /**
   * The answer of `validateWhatsAppNumber` once the client exists: `getNumberId`
   * decides when it does not throw; otherwise `isRegisteredUser` decides if it is
   * available and does not throw; otherwise the first error is rethrown.
   */
  function ValidationOf(input: string, byId: NumberLookup, fallback: RegisteredLookup): (r: Result<Validation, string>)
    ensures r.Failure? <==> byId.LookupThrew? && !fallback.Registered?
    ensures r.Success? ==> r.value.input == input && r.value.waId == NormalizeWaId(input) && r.value.number == NumberOf(NormalizeWaId(input))
    ensures r.Success? && r.value.wid.Some? ==> r.value.isRegistered
    ensures byId.Found? ==> r == Success(Validation(input, NumberOf(NormalizeWaId(input)), NormalizeWaId(input), true, Some(byId.wid)))
    ensures byId.NotFound? ==> r.Success? && !r.value.isRegistered && r.value.wid.None?
    ensures byId.LookupThrew? && fallback.Registered? ==>
              && r.Success? && r.value.isRegistered == fallback.ok
              && r.value.wid == (if fallback.ok then NormalizeWaId(input) else None)
  {
    var waId := NormalizeWaId(input);
    var number := NumberOf(waId);
    match byId
    case Found(wid) => Success(Validation(input, number, waId, true, Some(wid)))
    case NotFound => Success(Validation(input, number, waId, false, None))
    case LookupThrew =>
      match fallback
      case Registered(ok) => Success(Validation(input, number, waId, ok, if ok then waId else None))
      case _ => Failure("getNumberId failed")
  }

  /** The number looked up is the normalized local part: no `+`, no whitespace, no `@`. */
  lemma ValidatedNumberClean(input: string)
    requires input != ""
    ensures NoWhitespace(NumberOf(NormalizeWaId(input))) && Lacks(NumberOf(NormalizeWaId(input)), '@')
  {
    NormalizeSplits(input);
  }

  /** The `inbound_messages` row for a message, or None when its `from` normalizes to null (the NOT NULL column rejects it). */
  function InboundRow(clientId: string, msg: IncomingMessage): (row: Option<InboundMessage>)
    ensures row.Some? <==> msg.from != ""
    ensures row.Some? ==>
              && row.value.clientId == clientId && Some(row.value.from) == NormalizeWaId(msg.from)
              && row.value.to == NormalizeWaId(msg.to) && row.value.body == msg.body && row.value.fromMe == msg.fromMe
              && (row.value.ts.Some? <==> msg.timestamp.Some? && msg.timestamp.value != 0)
              && row.value.ts == (if msg.timestamp.Some? && msg.timestamp.value != 0 then msg.timestamp else None)
  {
    var from := NormalizeWaId(msg.from);
    if from.None? then None
    else Some(InboundMessage(clientId, from.value, NormalizeWaId(msg.to), msg.body, msg.fromMe,
      if msg.timestamp.Some? && msg.timestamp.value != 0 then msg.timestamp else None))
  }

  /** `allowAutoStart(clientId)`: false exactly when the id has a row whose status is DISCONNECTED. */
  predicate AllowsAutoStart(accounts: map<string, Account>, clientId: string): (allowed: bool)
    ensures clientId !in accounts ==> allowed
    ensures clientId in accounts ==> (allowed <==> accounts[clientId].status != Disconnected)
  {
    !(clientId in accounts && accounts[clientId].status == Disconnected)
  }

  /**
   * The registry after an unforced `startClient(clientId)`: unchanged for a live id;
   * otherwise the next client object is registered exactly when the id may start and
   * `initialize()` succeeds. No other id's entry changes.
   */
  function StartedClients(clients: map<string, Handle>, accounts: map<string, Account>, serial: nat, clientId: string, initOk: bool)
    : (r: map<string, Handle>)
    ensures forall id :: id != clientId ==> (id in r <==> id in clients)
    ensures forall id :: id != clientId && id in r ==> r[id] == clients[id]
    ensures clientId in r <==> clientId in clients || (AllowsAutoStart(accounts, clientId) && initOk)
    ensures clientId in clients ==> r[clientId] == clients[clientId]
  {
    if clientId in clients || !AllowsAutoStart(accounts, clientId) || !initOk then clients
    else clients[clientId := Handle(serial)]
  }

  /** The account table after `ensureAccountRow(clientId)`: one INITIALIZING row added when missing, every row kept. */
  function EnsuredAccounts(accounts: map<string, Account>, clientId: string): (r: map<string, Account>)
    ensures r.Keys == accounts.Keys + {clientId}
    ensures forall id :: id in accounts ==> r[id] == accounts[id]
    ensures clientId !in accounts ==> r[clientId] == FreshAccount
  {
    if clientId in accounts then accounts else accounts[clientId := FreshAccount]
  }

  /**
   * What the `message` handler does after storing `row`: a failed save ends it; a
   * ping not sent by this account is answered with `pong` to the sender, and a
   * failed reply ends it; a message not sent by this account is forwarded.
   */
  function Respond(row: Option<InboundMessage>, msg: IncomingMessage, replyOk: bool): (r: (Option<string>, Option<InboundMessage>))
    ensures r.0.Some? <==> row.Some? && !msg.fromMe && IsPingCommand(msg.body)
    ensures r.0.Some? ==> r.0.value == msg.from
    ensures r.1.Some? <==> row.Some? && !msg.fromMe && (replyOk || !IsPingCommand(msg.body))
    ensures r.1.Some? ==> r.1 == row
    ensures msg.fromMe ==> r == (None, None)
  {
    if row.None? || msg.fromMe then (None, None)
    else if IsPingCommand(msg.body) then (Some(msg.from), if replyOk then row else None)
    else (None, row)
  }

  class Manager {
    /** The registry: client id to live client object. */
    var clients: map<string, Handle>
    /** Serial of the next client object built. */
    var nextSerial: nat
    /** Client objects `destroy()` was called on, oldest first. */
    var destroyed: seq<Handle>
    /** `wa_accounts`, keyed by client id. */
    var accounts: map<string, Account>
    /** Whether the sessions base directory exists, and its listing. */
    var baseExists: bool
    var sessionEntries: seq<DirEntry>
    /** `inbound_messages`, in insertion order. */
    var inbound: seq<InboundMessage>

    /**
     * Every registered client has an account row; client objects are built with
     * fresh serials, no two ids share one, and a destroyed object is never registered.
     */
    ghost predicate Valid()
      reads this`clients, this`nextSerial, this`destroyed, this`accounts
    {
      && clients.Keys <= accounts.Keys
      && (forall id :: id in clients ==> clients[id].serial < nextSerial)
      && (forall a, b :: a in clients && b in clients && a != b ==> clients[a] != clients[b])
      && (forall i :: 0 <= i < |destroyed| ==> destroyed[i].serial < nextSerial)
      && (forall id, i :: id in clients && 0 <= i < |destroyed| ==> clients[id] != destroyed[i])
    }

    constructor(baseExists: bool, sessionEntries: seq<DirEntry>)
      ensures Valid() && clients == map[] && accounts == map[] && destroyed == [] && inbound == []
      ensures this.baseExists == baseExists && this.sessionEntries == sessionEntries
    {
      clients := map[];
      nextSerial := 0;
      destroyed := [];
      accounts := map[];
      this.baseExists := baseExists;
      this.sessionEntries := sessionEntries;
      inbound := [];
    }

    /** `listClients()`: the registered ids; each has an account row. */
    function ListClients(): (ids: set<string>)
      reads this`clients, this`nextSerial, this`destroyed, this`accounts
      ensures forall id :: id in ids <==> id in clients
      ensures Valid() ==> ids <= accounts.Keys
    {
      clients.Keys
    }

    /** `discoverStoredSessions()`: ids of the `session-<id>` directories, or none without a base directory. */
    function DiscoverStoredSessions(): (ids: seq<string>)
      reads this
      ensures forall id :: id in ids <==> baseExists && id != "" && DirEntry(SessionDirName(id), true) in sessionEntries
    {
      if !baseExists then []
      else
        var ids := SessionIds(sessionEntries);
        assert forall id :: id in ids <==> id != "" && DirEntry(SessionDirName(id), true) in sessionEntries by {
          forall id ensures id in ids <==> id != "" && DirEntry(SessionDirName(id), true) in sessionEntries {
            SessionIdsIff(sessionEntries, id);
          }
        }
        ids
    }

    /** `ensureAccountRow(clientId)`: create the INITIALIZING row when there is none; an existing row is untouched. */
    method EnsureAccountRow(clientId: string) returns (acc: Account)
      requires Valid()
      modifies this`accounts
      ensures Valid()
      ensures accounts == if clientId in old(accounts) then old(accounts) else old(accounts)[clientId := FreshAccount]
      ensures clientId in accounts && acc == accounts[clientId]
    {
      if clientId !in accounts {
        accounts := accounts[clientId := FreshAccount];
      }
      acc := accounts[clientId];
    }

    /**
     * `startClient(clientId, { forceReconnect })`, with `initOk` the outcome of
     * `initialize()`. A registered id is answered from the registry unless the start
     * is forced, in which case the old object is destroyed and unregistered first.
     * The row is ensured before the DISCONNECTED check, and the new object is
     * registered only after `initialize()` succeeds.
     */
    method StartClient(clientId: string, force: bool, initOk: bool) returns (r: Result<Handle, StartError>)
      requires Valid()
      modifies this`clients, this`nextSerial, this`destroyed, this`accounts
      ensures Valid()
      ensures clientId in old(clients) && !force ==>
        r == Success(old(clients)[clientId]) && clients == old(clients) && accounts == old(accounts)
        && destroyed == old(destroyed) && nextSerial == old(nextSerial)
      ensures !(clientId in old(clients) && !force) ==>
        && destroyed == old(destroyed) + (if clientId in old(clients) then [old(clients)[clientId]] else [])
        && accounts == (if clientId in old(accounts) then old(accounts) else old(accounts)[clientId := FreshAccount])
        && (!force && !AllowsAutoStart(old(accounts), clientId) ==>
              r == Failure(SessionDisconnected) && clients == old(clients) && nextSerial == old(nextSerial))
        && (!(!force && !AllowsAutoStart(old(accounts), clientId)) && !initOk ==>
              r == Failure(InitializeFailed) && clients == old(clients) - {clientId})
        && (!(!force && !AllowsAutoStart(old(accounts), clientId)) && initOk ==>
              r == Success(Handle(old(nextSerial))) && clients == (old(clients) - {clientId})[clientId := r.value])
      ensures !force ==>
        && clients == StartedClients(old(clients), old(accounts), old(nextSerial), clientId, initOk)
        && accounts == EnsuredAccounts(old(accounts), clientId)
    {
      if clientId in clients {
        if force {
          DestroyRegistered(clientId);
        } else {
          return Success(clients[clientId]);
        }
      }
      var existing := EnsureAccountRow(clientId);
      if existing.status == Disconnected && !force {
        return Failure(SessionDisconnected);
      }
      r := Launch(clientId, initOk);
    }

    /** Build a new client object and run `initialize()`; register it only when that succeeds. */
    method Launch(clientId: string, initOk: bool) returns (r: Result<Handle, StartError>)
      requires Valid() && clientId !in clients && clientId in accounts
      modifies this`clients, this`nextSerial
      ensures Valid()
      ensures !initOk ==> r == Failure(InitializeFailed) && clients == old(clients)
      ensures initOk ==> r == Success(Handle(old(nextSerial))) && clients == old(clients)[clientId := r.value]
    {
      var client := Handle(nextSerial);
      nextSerial := nextSerial + 1;
      if !initOk {
        return Failure(InitializeFailed);
      }
      clients := clients[clientId := client];
      return Success(client);
    }

    /** `getClient(clientId)`: the registered object, starting the client (unforced) when there is none. */
    method GetClient(clientId: string, initOk: bool) returns (r: Result<Handle, StartError>)
      requires Valid()
      modifies this`clients, this`nextSerial, this`destroyed, this`accounts
      ensures Valid()
      ensures clientId in old(clients) ==> r == Success(old(clients)[clientId]) && clients == old(clients) && accounts == old(accounts)
      ensures r.Success? ==> clientId in clients && clients[clientId] == r.value
      ensures clientId !in old(clients) && !AllowsAutoStart(old(accounts), clientId) ==> r == Failure(SessionDisconnected) && clients == old(clients)
      ensures clientId !in old(clients) && AllowsAutoStart(old(accounts), clientId) ==>
        && (r.Success? <==> initOk)
        && (initOk ==> r == Success(Handle(old(nextSerial))) && clients == old(clients)[clientId := r.value])
        && (!initOk ==> r == Failure(InitializeFailed) && clients == old(clients))
      ensures clientId !in old(clients) ==>
        && accounts == (if clientId in old(accounts) then old(accounts) else old(accounts)[clientId := FreshAccount])
        && destroyed == old(destroyed)
      ensures clientId in accounts
      ensures clients == StartedClients(old(clients), old(accounts), old(nextSerial), clientId, initOk)
      ensures accounts == EnsuredAccounts(old(accounts), clientId)
      ensures destroyed == old(destroyed)
    {
      r := StartClient(clientId, false, initOk);
    }

    /**
     * `validateWhatsAppNumber(clientId, input)`: get (or start) the client, then
     * look the normalized number up.
     */
    method ValidateWhatsAppNumber(clientId: string, input: string, initOk: bool, byId: NumberLookup, fallback: RegisteredLookup)
      returns (r: Result<Validation, string>)
      requires Valid()
      modifies this`clients, this`nextSerial, this`destroyed, this`accounts
      ensures Valid()
      ensures r.Success? ==> clientId in clients && r == ValidationOf(input, byId, fallback)
      ensures clientId in old(clients) ==> r == ValidationOf(input, byId, fallback)
      ensures clientId !in old(clients) && AllowsAutoStart(old(accounts), clientId) ==>
        (if initOk then r == ValidationOf(input, byId, fallback) && clientId in clients else r.Failure? && clientId !in clients)
      ensures clientId !in old(clients) && !AllowsAutoStart(old(accounts), clientId) ==> r.Failure? && clientId !in clients
      ensures clientId in accounts
      ensures clients == StartedClients(old(clients), old(accounts), old(nextSerial), clientId, initOk)
      ensures accounts == EnsuredAccounts(old(accounts), clientId)
      ensures destroyed == old(destroyed)
    {
      var client := GetClient(clientId, initOk);
      if client.Failure? {
        return Failure("client could not be started");
      }
      r := ValidationOf(input, byId, fallback);
    }

    /** The `qr` event: status QR and the code stored, when the row exists. */
    method OnQr(clientId: string, qr: string)
      requires Valid()
      modifies this`accounts
      ensures Valid()
      ensures clientId !in old(accounts) ==> accounts == old(accounts)
      ensures clientId in old(accounts) ==> accounts == old(accounts)[clientId := old(accounts)[clientId].(status := Qr, lastQr := Some(qr))]
    {
      if clientId in accounts {
        accounts := accounts[clientId := accounts[clientId].(status := Qr, lastQr := Some(qr))];
      }
    }

    /** The `authenticated` event: status AUTHENTICATED, when the row exists. */
    method OnAuthenticated(clientId: string)
      requires Valid()
      modifies this`accounts
      ensures Valid()
      ensures clientId !in old(accounts) ==> accounts == old(accounts)
      ensures clientId in old(accounts) ==> accounts == old(accounts)[clientId := old(accounts)[clientId].(status := Authenticated)]
    {
      if clientId in accounts {
        accounts := accounts[clientId := accounts[clientId].(status := Authenticated)];
      }
    }

    /** The `ready` event: status READY, connected now, QR cleared, when the row exists. */
    method OnReady(clientId: string, now: int)
      requires Valid()
      modifies this`accounts
      ensures Valid()
      ensures clientId !in old(accounts) ==> accounts == old(accounts)
      ensures clientId in old(accounts) ==>
        accounts == old(accounts)[clientId := old(accounts)[clientId].(status := Ready, lastConnectedAt := Some(now), lastQr := None)]
    {
      if clientId in accounts {
        accounts := accounts[clientId := accounts[clientId].(status := Ready, lastConnectedAt := Some(now), lastQr := None)];
      }
    }

    /** The `auth_failure` event: status AUTH_FAILURE, when the row exists. */
    method OnAuthFailure(clientId: string)
      requires Valid()
      modifies this`accounts
      ensures Valid()
      ensures clientId !in old(accounts) ==> accounts == old(accounts)
      ensures clientId in old(accounts) ==> accounts == old(accounts)[clientId := old(accounts)[clientId].(status := AuthFailure)]
    {
      if clientId in accounts {
        accounts := accounts[clientId := accounts[clientId].(status := AuthFailure)];
      }
    }

    /**
     * `purgeSession(clientId)`: destroy and unregister the live object, remove the
     * `session-<id>` directory and delete the row. Always answers true, also for an
     * unknown id or a second purge.
     */
    method PurgeSession(clientId: string) returns (ok: bool)
      requires Valid()
      modifies this`clients, this`destroyed, this`sessionEntries, this`accounts
      ensures Valid() && ok
      ensures clients == old(clients) - {clientId} && accounts == old(accounts) - {clientId}
      ensures destroyed == old(destroyed) + (if clientId in old(clients) then [old(clients)[clientId]] else [])
      ensures sessionEntries == RemoveNamed(old(sessionEntries), SessionDirName(clientId))
      ensures forall id :: id in DiscoverStoredSessions() <==> id in old(DiscoverStoredSessions()) && id != clientId
    {
      DestroyRegistered(clientId);
      RemoveSessionDir(clientId);
      accounts := accounts - {clientId};
      ok := true;
    }

    /** Destroy and unregister the live object of `clientId`, if there is one. */
    method DestroyRegistered(clientId: string)
      requires Valid()
      modifies this`clients, this`destroyed
      ensures Valid()
      ensures clients == old(clients) - {clientId}
      ensures destroyed == old(destroyed) + (if clientId in old(clients) then [old(clients)[clientId]] else [])
    {
      if clientId in clients {
        destroyed := destroyed + [clients[clientId]];
        clients := clients - {clientId};
      }
    }

    /** Remove the `session-<id>` directory: discovery then forgets exactly that id. */
    method RemoveSessionDir(clientId: string)
      modifies this`sessionEntries
      ensures sessionEntries == RemoveNamed(old(sessionEntries), SessionDirName(clientId))
      ensures forall id :: id in DiscoverStoredSessions() <==> id in old(DiscoverStoredSessions()) && id != clientId
    {
      sessionEntries := RemoveNamed(sessionEntries, SessionDirName(clientId));
      forall id ensures id in DiscoverStoredSessions() <==> id in old(DiscoverStoredSessions()) && id != clientId {
        RemoveForgets(old(sessionEntries), clientId, id);
      }
    }

    /** The `disconnected` event: the whole session is purged; DISCONNECTED is not written here. */
    method OnDisconnected(clientId: string)
      requires Valid()
      modifies this`clients, this`destroyed, this`sessionEntries, this`accounts
      ensures Valid()
      ensures clientId !in clients && clientId !in accounts && clientId !in DiscoverStoredSessions()
      ensures clients == old(clients) - {clientId} && accounts == old(accounts) - {clientId}
    {
      var _ := PurgeSession(clientId);
    }

    /**
     * The `message` event, with `replyOk` the outcome of sending `pong`: the row (if
     * any) records the message time and becomes READY, the message is stored, and
     * `Respond` decides the pong reply and the forwarding.
     */
    method OnMessage(clientId: string, msg: IncomingMessage, now: int, replyOk: bool)
      returns (pongTo: Option<string>, forwarded: Option<InboundMessage>)
      requires Valid()
      modifies this`accounts, this`inbound
      ensures Valid()
      ensures clientId !in old(accounts) ==> accounts == old(accounts)
      ensures clientId in old(accounts) ==>
        accounts == old(accounts)[clientId := old(accounts)[clientId].(status := Ready, lastMessageAt := Some(now))]
      ensures inbound == old(inbound) + (if InboundRow(clientId, msg).Some? then [InboundRow(clientId, msg).value] else [])
      ensures (pongTo, forwarded) == Respond(InboundRow(clientId, msg), msg, replyOk)
    {
      MarkActive(clientId, now);
      var row := StoreInbound(clientId, msg);
      pongTo, forwarded := Respond(row, msg, replyOk).0, Respond(row, msg, replyOk).1;
    }

    /** The `inbound_messages` part of the `message` event: the row is saved when it can be. */
    method StoreInbound(clientId: string, msg: IncomingMessage) returns (row: Option<InboundMessage>)
      modifies this`inbound
      ensures row == InboundRow(clientId, msg)
      ensures inbound == old(inbound) + (if row.Some? then [row.value] else [])
    {
      row := InboundRow(clientId, msg);
      if row.Some? {
        inbound := inbound + [row.value];
      }
    }

    /** The account part of the `message` event: the row, when it exists, records the time and becomes READY. */
    method MarkActive(clientId: string, now: int)
      requires Valid()
      modifies this`accounts
      ensures Valid()
      ensures clientId !in old(accounts) ==> accounts == old(accounts)
      ensures clientId in old(accounts) ==>
        accounts == old(accounts)[clientId := old(accounts)[clientId].(status := Ready, lastMessageAt := Some(now))]
    {
      if clientId in accounts {
        accounts := accounts[clientId := accounts[clientId].(status := Ready, lastMessageAt := Some(now))];
      }
    }

    /**
     * `reconnectSession(clientId)`: reset the row to INITIALIZING with no QR (or
     * create it), then force a fresh start. Afterwards auto-start is allowed.
     */
    method ReconnectSession(clientId: string, initOk: bool) returns (r: Result<Account, StartError>)
      requires Valid()
      modifies this`clients, this`nextSerial, this`destroyed, this`accounts
      ensures Valid()
      ensures clientId in accounts && accounts[clientId].status == Initializing && accounts[clientId].lastQr.None?
      ensures AllowsAutoStart(accounts, clientId)
      ensures accounts == old(accounts)[clientId := if clientId in old(accounts)
        then old(accounts)[clientId].(status := Initializing, lastQr := None) else FreshAccount]
      ensures r.Success? <==> initOk
      ensures r.Success? ==> r.value == accounts[clientId] && clientId in clients && clients[clientId] !in old(clients).Values
      ensures !initOk ==> clients == old(clients) - {clientId}
      ensures destroyed == old(destroyed) + (if clientId in old(clients) then [old(clients)[clientId]] else [])
      ensures initOk ==> clients == (old(clients) - {clientId})[clientId := Handle(old(nextSerial))]
    {
      var row := if clientId in accounts then accounts[clientId].(status := Initializing, lastQr := None) else FreshAccount;
      accounts := accounts[clientId := row];
      var started := StartClient(clientId, true, initOk);
      if started.Failure? {
        return Failure(started.error);
      }
      r := Success(accounts[clientId]);
    }

    /**
     * `reconnectStoredSessions()`: start (unforced) every discovered id that still
     * has a row, and report those whose start did not throw. `initOk` gives the
     * `initialize()` outcome per id.
     */
    method ReconnectStoredSessions(initOk: string -> bool) returns (started: seq<string>)
      requires Valid()
      modifies this`clients, this`nextSerial, this`destroyed, this`accounts
      ensures Valid()
      ensures accounts == old(accounts)
      ensures forall id :: id in old(clients) ==> id in clients && clients[id] == old(clients)[id]
      ensures forall id :: id in clients ==> id in old(clients) || id in started
      ensures forall id :: id in started <==>
        id in old(DiscoverStoredSessions()) && id in old(accounts)
        && (id in old(clients) || (AllowsAutoStart(old(accounts), id) && initOk(id)))
      ensures forall id :: id in started ==> id in clients
      ensures destroyed == old(destroyed)
    {
      var ids := DiscoverStoredSessions();
      started := [];
      for i := 0 to |ids|
        invariant Valid()
        invariant accounts == old(accounts)
        invariant baseExists == old(baseExists) && sessionEntries == old(sessionEntries)
        invariant forall id :: id in old(clients) ==> id in clients && clients[id] == old(clients)[id]
        invariant forall id :: id in clients ==> id in old(clients) || id in started
        invariant forall id :: id in started <==>
          id in ids[..i] && id in accounts && (id in old(clients) || (AllowsAutoStart(accounts, id) && initOk(id)))
        invariant forall id :: id in started ==> id in clients
        invariant destroyed == old(destroyed)
      {
        var id := ids[i];
        assert ids[..i + 1] == ids[..i] + [id];
        if id !in accounts {
          continue;
        }
        var ok := ReconnectOne(id, initOk(id));
        if ok {
          started := started + [id];
        }
      }
    }

    /** One iteration of `reconnectStoredSessions` for an id that has a row: an unforced start. */
    method ReconnectOne(id: string, initOk: bool) returns (ok: bool)
      requires Valid() && id in accounts
      modifies this`clients, this`nextSerial, this`destroyed, this`accounts
      ensures Valid()
      ensures accounts == old(accounts)
      ensures ok <==> id in old(clients) || (AllowsAutoStart(accounts, id) && initOk)
      ensures forall x :: x in old(clients) ==> x in clients && clients[x] == old(clients)[x]
      ensures forall x :: x in clients ==> x in old(clients) || (ok && x == id)
      ensures ok ==> id in clients
      ensures destroyed == old(destroyed)
    {
      var r := StartClient(id, false, initOk);
      ok := r.Success?;
    }
  }

  /** Whitespace padding around the body does not matter to the ping probe. */
  lemma PingIgnoresPadding(pre: string, word: string, post: string)
    requires forall k :: 0 <= k < |pre| ==> IsWhitespace(pre[k])
    requires forall k :: 0 <= k < |post| ==> IsWhitespace(post[k])
    requires word != [] && !IsWhitespace(word[0]) && !IsWhitespace(word[|word| - 1])
    ensures IsPingCommand(pre + word + post) <==> IsPingCommand(word)
  {
    TrimPadded(pre, word, post);
  }
}

=== FILE: config.dfy ===
/**
 * The `configs` table: one nullable text value per unique key, with lookups that
 * fall back to a caller-supplied default.
 */
module ConfigService {
  import opened Wrappers

  /** A `configs` row as `setConfig` returns it. */
  datatype ConfigRow = ConfigRow(key: string, value: Option<string>)

  class ConfigStore {
    /** Key to stored value; a key occurs at most once, and a stored value may be null. */
    var rows: map<string, Option<string>>

    constructor()
      ensures rows == map[]
    {
      rows := map[];
    }

    /** `getConfig(key, default)`: a missing row or a null value gives the default, any other value (even "") is returned. */
    function GetConfig(key: string, default: Option<string>): (r: Option<string>)
      reads this
      ensures key !in rows || rows[key].None? ==> r == default
      ensures key in rows && rows[key].Some? ==> r == rows[key]
    {
      if key in rows && rows[key].Some? then rows[key] else default
    }

    /** `setConfig(key, value)`: update the row for `key` in place, or create it; no other key is touched. */
    method SetConfig(key: string, value: Option<string>) returns (row: ConfigRow)
      modifies this
      ensures rows == old(rows)[key := value]
      ensures row == ConfigRow(key, value)
      ensures value.Some? ==> forall d :: GetConfig(key, d) == value
    {
      rows := rows[key := value];
      row := ConfigRow(key, value);
    }

    /**
     * `getNumberConfig(key, default)`: a missing or null value gives the default; otherwise
     * `Number(value)` when it is finite. `parse` stands for `Number` followed by
     * `Number.isFinite`: None when the text does not denote a finite number.
     */
    function GetNumberConfig(key: string, default: int, parse: string -> Option<int>): (r: int)
      reads this
      ensures GetConfig(key, None).None? ==> r == default
      ensures GetConfig(key, None).Some? && parse(GetConfig(key, None).value).None? ==> r == default
      ensures GetConfig(key, None).Some? && parse(GetConfig(key, None).value).Some? ==> r == parse(GetConfig(key, None).value).value
    {
      var v := GetConfig(key, None);
      if v.None? then default
      else match parse(v.value)
        case Some(n) => n
        case None => default
    }
  }
}

=== FILE: entities.dfy ===
/**
 * Rows of the gateway's tables, as values. Column lists and defaults follow the
 * entity schemas in src/entities. Timestamps are integers (milliseconds); a
 * nullable column is an Option.
 */
module Entities {
  import opened Wrappers

  /** `message_jobs.status`: queued | processing | sent | failed. */
  datatype JobStatus = Queued | Processing | Sent | Failed

  /** `wa_accounts.status`. */
  datatype AccountStatus = Initializing | Qr | Authenticated | Ready | AuthFailure | Disconnected

  /** `broadcasts.status`: queued | sending | done | failed. */
  datatype BroadcastStatus = BroadcastQueued | Sending | Done | BroadcastFailed

  /** Column default of `message_jobs.maxAttempts`. */
  const ColumnDefaultMaxAttempts: int := 8

  /** One outbound message and its retry state. */
  datatype MessageJob = MessageJob(
    clientId: string,
    to: string,
    text: string,
    status: JobStatus,
    attempts: int,
    maxAttempts: int,
    nextRunAt: Option<int>,
    lastError: Option<string>,
    broadcastId: Option<nat>)

  /**
   * The row a submission creates: `queued`, no attempts yet, and `maxAttempts`
   * taken from the request only when it is truthy (a missing value or 0 leaves
   * the column default).
   */
  function NewJob(clientId: string, to: string, text: string, maxAttempts: Option<int>, broadcastId: Option<nat>): (job: MessageJob)
    ensures job.status == Queued && job.attempts == 0
    ensures job.clientId == clientId && job.to == to && job.text == text && job.broadcastId == broadcastId
    ensures job.nextRunAt.None? && job.lastError.None?
    ensures job.maxAttempts == if maxAttempts.Some? && maxAttempts.value != 0 then maxAttempts.value else ColumnDefaultMaxAttempts
  {
    MessageJob(clientId, to, text, Queued, 0,
      if maxAttempts.Some? && maxAttempts.value != 0 then maxAttempts.value else ColumnDefaultMaxAttempts,
      None, None, broadcastId)
  }

  /** Persisted lifecycle record of one client id (the id is the key of the account map). */
  datatype Account = Account(
    status: AccountStatus,
    lastConnectedAt: Option<int>,
    lastDisconnectedAt: Option<int>,
    lastMessageAt: Option<int>,
    lastQr: Option<string>)

  /** The row `ensureAccountRow` creates: status INITIALIZING, every nullable column null. */
  const FreshAccount: Account := Account(Initializing, None, None, None, None)

  /** An audit row for a received message. */
  datatype InboundMessage = InboundMessage(
    clientId: string,
    from: string,
    to: Option<string>,
    body: string,
    fromMe: bool,
    ts: Option<int>)

  /** A campaign grouping the jobs of one multi-recipient submission. */
  datatype Broadcast = Broadcast(clientId: string, name: string, text: string, status: BroadcastStatus)
}

=== FILE: fibonacci.dfy ===
/**
 * The retry-delay multiplier of the send queue: a Fibonacci sequence that starts
 * 1, 1, 2, 3, 5, … and answers 1 for every argument up to 1 (negatives included).
 */
module Fibonacci {

  /** Reference definition: `Fib(0) == Fib(1) == 1`, then each value is the sum of the two before it. */
  function Fib(n: int): (r: int)
    ensures r >= 1
    decreases if n < 0 then 0 else n
  {
    if n <= 1 then 1 else Fib(n - 1) + Fib(n - 2)
  }

  /** `fibonacci(n)`: the two-variable loop computes `Fib(n)`. */
  method Fibonacci(n: int) returns (r: int)
    ensures r == Fib(n)
    ensures r >= 1
  {
    if n <= 1 {
      return 1;
    }
    var a, b := 1, 1;
    for i := 2 to n + 1
      invariant a == Fib(i - 2) && b == Fib(i - 1)
    {
      var c := a + b;
      a := b;
      b := c;
    }
    return b;
  }

  /** Delays never shrink from one attempt to the next. */
  lemma {:induction false} FibMonotone(m: int, n: int)
    requires m <= n
    ensures Fib(m) <= Fib(n)
    decreases n - m
  {
    if m < n {
      FibMonotone(m, n - 1);
      if n >= 2 {
        assert Fib(n) == Fib(n - 1) + Fib(n - 2);
      }
    }
  }

  /** From attempt 1 on the multiplier is at least the attempt number. */
  lemma {:induction false} FibAtLeast(n: int)
    requires n >= 1
    ensures Fib(n) >= n
    decreases n
  {
    if n >= 3 {
      FibAtLeast(n - 1);
    }
  }

  /** The first values, as the loop produces them. */
  lemma FibFirstValues()
    ensures Fib(0) == 1 && Fib(1) == 1 && Fib(2) == 2 && Fib(3) == 3 && Fib(4) == 5 && Fib(5) == 8
  {
  }
}

=== FILE: formatting.dfy ===
/**
 * Destination-address normalisation (`normalizeWaId`, src/utils/formating.js).
 * An address is a local part and a domain, split at the first `@`. The local
 * part loses one leading `+` and all whitespace; a national number (`0…` or a
 * bare `8…`) gets the country code 62; the domain is kept, or `@c.us` is added.
 */
module Formatting {
  import opened Wrappers
  import opened JsString

  const DefaultDomain: string := "@c.us"
  const CountryCode: string := "62"

  predicate IsDigit(c: char) {
    '0' <= c <= '9'
  }

  /** `/^<first>\d+/` : the string starts with `first` followed by at least one ASCII digit. */
  predicate StartsWithThenDigit(s: string, first: char) {
    |s| >= 2 && s[0] == first && IsDigit(s[1])
  }

  /** Everything before the first `@`, or the whole string when it has none. */
  function LocalPart(s: string): (local: string)
    ensures Lacks(local, '@')
    ensures StartsWith(s, local)
    ensures Lacks(s, '@') ==> local == s
  {
    var at := IndexOf(s, '@');
    if at >= 0 then s[..at] else s
  }

  /** The suffix from the first `@` on, or `@c.us` when there is no `@`. */
  function DomainPart(s: string): (domain: string)
    ensures |domain| > 0 && domain[0] == '@'
    ensures !Lacks(s, '@') ==> s == LocalPart(s) + domain
    ensures Lacks(s, '@') ==> domain == DefaultDomain
  {
    var at := IndexOf(s, '@');
    if at >= 0 then s[at..] else DefaultDomain
  }

  /** `local.replace(/^\+/, '').replace(/\s+/g, '')`: drop one leading `+`, then every whitespace character. */
  function StripLocal(local: string): (r: string)
    ensures NoWhitespace(r)
    ensures forall c :: Lacks(local, c) ==> Lacks(r, c)
    ensures r == RemoveWhitespace(if StartsWith(local, "+") then local[1..] else local)
  {
    RemoveWhitespace(if |local| > 0 && local[0] == '+' then local[1..] else local)
  }

  /** The national-number rewrite: `0d…` becomes `62d…`, `8d…` becomes `628d…`, anything else is kept. */
  function RewriteLocal(local: string): (r: string)
    ensures StartsWithThenDigit(local, '0') ==> r == CountryCode + local[1..]
    ensures StartsWithThenDigit(local, '8') ==> r == CountryCode + local
    ensures !StartsWithThenDigit(local, '0') && !StartsWithThenDigit(local, '8') ==> r == local
    ensures r != local ==> StartsWith(r, CountryCode)
  {
    if StartsWithThenDigit(local, '0') then CountryCode + local[1..]
    else if StartsWithThenDigit(local, '8') then CountryCode + local
    else local
  }

  /** `normalizeWaId(id)`; the empty string stands for every falsy input, which yields null. */
  function NormalizeWaId(id: string): (r: Option<string>)
    ensures r.None? <==> id == ""
  {
    if id == "" then None
    else
      var s := Trim(id);
      Some(RewriteLocal(StripLocal(LocalPart(s))) + DomainPart(s))
  }

  /** The local part a call works on once the `+` and the whitespace are gone. */
  function StrippedLocal(id: string): string {
    StripLocal(LocalPart(Trim(id)))
  }

  lemma LacksConcat(c: char, a: string, b: string)
    requires Lacks(a, c) && Lacks(b, c)
    ensures Lacks(a + b, c)
  {
  }

  /** The rewrite adds only the digits `62`: it introduces neither `@` nor whitespace. */
  lemma RewriteLocalAdds(local: string)
    ensures Lacks(local, '@') ==> Lacks(RewriteLocal(local), '@')
    ensures NoWhitespace(local) ==> NoWhitespace(RewriteLocal(local))
  {
    if StartsWithThenDigit(local, '0') {
      if Lacks(local, '@') {
        assert Lacks(local[1..], '@');
        LacksConcat('@', CountryCode, local[1..]);
      }
    } else if StartsWithThenDigit(local, '8') {
      if Lacks(local, '@') {
        LacksConcat('@', CountryCode, local);
      }
    }
  }

  lemma IndexOfFirstAt(local: string, domain: string)
    requires Lacks(local, '@') && |domain| > 0 && domain[0] == '@'
    ensures IndexOf(local + domain, '@') == |local|
  {
    var s := local + domain;
    var i := IndexOf(s, '@');
    assert s[|local|] == '@';
  }

  /** Splitting `local + domain` at its first `@` gives back the two parts. */
  lemma SplitsAt(local: string, domain: string)
    requires Lacks(local, '@') && |domain| > 0 && domain[0] == '@'
    ensures LocalPart(local + domain) == local
    ensures DomainPart(local + domain) == domain
  {
    IndexOfFirstAt(local, domain);
    assert (local + domain)[..|local|] == local;
    assert (local + domain)[|local|..] == domain;
  }

  /**
   * The result splits back into its two parts: its local part is the rewritten
   * local part of the input, free of whitespace and `@`, and its domain is the
   * input's suffix from the first `@` (or `@c.us`).
   */
  lemma NormalizeSplits(id: string)
    requires id != ""
    ensures var r := NormalizeWaId(id).value;
      && LocalPart(r) == RewriteLocal(StrippedLocal(id))
      && DomainPart(r) == DomainPart(Trim(id))
      && NoWhitespace(LocalPart(r))
      && r == LocalPart(r) + DomainPart(r)
  {
    var stripped := StrippedLocal(id);
    assert Lacks(stripped, '@');
    RewriteLocalAdds(stripped);
    SplitsAt(RewriteLocal(stripped), DomainPart(Trim(id)));
  }

  /** A normalised address has no whitespace at either end. */
  lemma NormalizedIsTrimmed(id: string)
    requires id != ""
    ensures Trim(NormalizeWaId(id).value) == NormalizeWaId(id).value
  {
    var s := Trim(id);
    var stripped := StripLocal(LocalPart(s));
    RewriteLocalAdds(stripped);
    DomainTail(s);
    TrimmedConcat(RewriteLocal(stripped), DomainPart(s));
  }

  lemma TrimmedConcat(local: string, domain: string)
    requires NoWhitespace(local) && |domain| > 0 && domain[0] == '@' && !IsWhitespace(domain[|domain| - 1])
    ensures Trim(local + domain) == local + domain
  {
    var r := local + domain;
    assert r[0] == (if local == [] then '@' else local[0]);
    assert r[|r| - 1] == domain[|domain| - 1];
    TrimTrimmed(r);
  }

  /** The domain of a trimmed address does not end in whitespace. */
  lemma DomainTail(s: string)
    requires s == [] || !IsWhitespace(s[|s| - 1])
    ensures var d := DomainPart(s); !IsWhitespace(d[|d| - 1])
  {
    if Lacks(s, '@') {
      assert DomainPart(s) == DefaultDomain;
    }
  }

  /**
   * Normalising twice gives the same address as normalising once, provided the
   * local part does not still begin with `+` after one `+` is removed (`++0812`
   * is the counterexample: each call strips a single `+`).
   */
  lemma NormalizeIdempotent(id: string)
    requires id != ""
    requires !StartsWith(StrippedLocal(id), "+")
    ensures NormalizeWaId(NormalizeWaId(id).value) == NormalizeWaId(id)
  {
    var r := NormalizeWaId(id).value;
    var stripped := StrippedLocal(id);
    var local := RewriteLocal(stripped);
    var domain := DomainPart(r);
    NormalizeSplits(id);
    NormalizedIsTrimmed(id);
    RewriteFixed(stripped);
    assert r == local + domain;
    assert domain[|domain| - 1] == r[|r| - 1];
    NormalizeClean(local, domain);
  }

  /** A stripped local part that does not start with `+` is a fixed point of the rewrite, once rewritten. */
  lemma RewriteFixed(stripped: string)
    requires !StartsWith(stripped, "+")
    ensures var local := RewriteLocal(stripped);
      RewriteLocal(local) == local && !StartsWith(local, "+")
  {
  }

  lemma NoPlusNoChange(local: string)
    requires NoWhitespace(local) && !StartsWith(local, "+")
    ensures StripLocal(local) == local
  {
  }

  /** A local part with an `@` domain that needs no trimming and no stripping is normalised by the rewrite alone. */
  lemma NormalizeClean(local: string, domain: string)
    requires Lacks(local, '@') && NoWhitespace(local) && !StartsWith(local, "+")
    requires |domain| > 0 && domain[0] == '@' && !IsWhitespace(domain[|domain| - 1])
    ensures NormalizeWaId(local + domain) == Some(RewriteLocal(local) + domain)
  {
    TrimmedConcat(local, domain);
    SplitsAt(local, domain);
    NoPlusNoChange(local);
  }

  /** An input without `@` and without surrounding whitespace gets the default domain. */
  lemma NormalizeNoDomain(local: string)
    requires local != [] && !IsWhitespace(local[0]) && !IsWhitespace(local[|local| - 1])
    requires Lacks(local, '@')
    ensures NormalizeWaId(local) == Some(RewriteLocal(StripLocal(local)) + DefaultDomain)
  {
    TrimTrimmed(local);
  }

  lemma StripOnePlus(rest: string)
    requires NoWhitespace(rest)
    ensures StripLocal("+" + rest) == rest
  {
    assert ("+" + rest)[1..] == rest;
  }

  lemma PlusClean(rest: string)
    requires NoWhitespace(rest) && Lacks(rest, '@')
    ensures NoWhitespace("+" + rest) && Lacks("+" + rest, '@')
  {
    var once := "+" + rest;
    assert !IsWhitespace('+');
    forall k | 0 <= k < |once| ensures !IsWhitespace(once[k]) {
      if k > 0 { assert once[k] == rest[k - 1]; }
    }
    LacksConcat('@', "+", rest);
  }

  /** A second leading `+` in front of a `+`-prefixed local part is the only one dropped. */
  lemma NormalizeDoublePlus(once: string)
    requires once != [] && once[0] == '+' && NoWhitespace(once) && Lacks(once, '@')
    ensures NormalizeWaId("+" + once) == Some(once + DefaultDomain)
  {
    PlusClean(once);
    var twice := "+" + once;
    assert twice[|twice| - 1] == once[|once| - 1];
    NormalizeNoDomain(twice);
    StripOnePlus(once);
    assert !StartsWithThenDigit(once, '0') && !StartsWithThenDigit(once, '8');
  }

  /** With the domain present, one leading `+` is dropped and the rest rewritten. */
  lemma NormalizePlusDomain(rest: string)
    requires NoWhitespace(rest) && Lacks(rest, '@')
    ensures NormalizeWaId("+" + rest + DefaultDomain) == Some(RewriteLocal(rest) + DefaultDomain)
  {
    PlusClean(rest);
    TrimmedConcat("+" + rest, DefaultDomain);
    SplitsAt("+" + rest, DefaultDomain);
    StripOnePlus(rest);
  }

  /**
   * Idempotence fails when the number carries two leading `+`: `++` followed by a
   * clean local part keeps one `+` after the first call, and the second call drops it.
   */
  lemma DoublePlusNotIdempotent(rest: string)
    requires rest != [] && rest[0] != '+' && NoWhitespace(rest) && Lacks(rest, '@')
    ensures NormalizeWaId("++" + rest) == Some("+" + rest + DefaultDomain)
    ensures NormalizeWaId("+" + rest + DefaultDomain) == Some(RewriteLocal(rest) + DefaultDomain)
    ensures NormalizeWaId(NormalizeWaId("++" + rest).value) != NormalizeWaId("++" + rest)
  {
    var once := "+" + rest;
    assert "++" + rest == "+" + once;
    PlusClean(rest);
    NormalizeDoublePlus(once);
    NormalizePlusDomain(rest);
    var again := RewriteLocal(rest);
    RewriteHead(rest);
    HeadsDiffer(again, once, DefaultDomain);
    var first := NormalizeWaId("++" + rest);
    assert first == Some(once + DefaultDomain);
    assert NormalizeWaId(first.value) == Some(again + DefaultDomain);
  }

  lemma RewriteHead(local: string)
    requires local != [] && local[0] != '+'
    ensures RewriteLocal(local) != [] && RewriteLocal(local)[0] != '+'
  {
    var r := RewriteLocal(local);
    if r != local {
      assert r[..2] == CountryCode;
      assert r[0] == CountryCode[0] == '6';
    }
  }

  lemma HeadsDiffer(a: string, b: string, tail: string)
    requires a != [] && b != [] && a[0] != b[0]
    ensures a + tail != b + tail
  {
    assert (a + tail)[0] == a[0] && (b + tail)[0] == b[0];
  }
}

=== FILE: jsstring.dfy ===
/**
 * The few JavaScript string built-ins the gateway relies on: `trim`, the `\s`
 * character class, `startsWith`, `includes`, `indexOf`, `split` on one character
 * and lower-casing.
 */
module JsString {

  /** ECMAScript WhiteSpace and LineTerminator code points: what `\s` matches and `trim` removes. */
  predicate IsWhitespace(c: char) {
    || c == '\t' || c == '\n' || c == '\U{B}' || c == '\U{C}' || c == '\r' || c == ' '
    || c == '\U{A0}' || c == '\U{1680}' || ('\U{2000}' <= c <= '\U{200A}')
    || c == '\U{2028}' || c == '\U{2029}' || c == '\U{202F}' || c == '\U{205F}'
    || c == '\U{3000}' || c == '\U{FEFF}'
  }

  predicate NoWhitespace(s: string) {
    forall i :: 0 <= i < |s| ==> !IsWhitespace(s[i])
  }

  /** `c` does not occur in `s`. */
  predicate Lacks(s: string, c: char) {
    forall k :: 0 <= k < |s| ==> s[k] != c
  }

  predicate StartsWith(s: string, prefix: string) {
    |prefix| <= |s| && s[..|prefix|] == prefix
  }

  /** `s.trimStart()`: the longest suffix of `s` that does not start with whitespace. */
  function TrimStart(s: string): (r: string)
    ensures |r| <= |s| && r == s[|s| - |r|..]
    ensures forall k :: 0 <= k < |s| - |r| ==> IsWhitespace(s[k])
    ensures r == [] || !IsWhitespace(r[0])
  {
    if s != [] && IsWhitespace(s[0]) then TrimStart(s[1..]) else s
  }

  /** `s.trimEnd()`: the longest prefix of `s` that does not end with whitespace. */
  function TrimEnd(s: string): (r: string)
    ensures |r| <= |s| && r == s[..|r|]
    ensures forall k :: |r| <= k < |s| ==> IsWhitespace(s[k])
    ensures r == [] || !IsWhitespace(r[|r| - 1])
  {
    if s != [] && IsWhitespace(s[|s| - 1]) then TrimEnd(s[..|s| - 1]) else s
  }

  /** `s.trim()`: `s` with its leading and its trailing whitespace cut off. */
  function Trim(s: string): (r: string)
    ensures |r| <= |s|
    ensures r == [] || (!IsWhitespace(r[0]) && !IsWhitespace(r[|r| - 1]))
  {
    TrimEnd(TrimStart(s))
  }

  /** What `Trim` cuts off is whitespace only, at both ends, and what it keeps is one contiguous slice. */
  lemma TrimSlice(s: string)
    ensures var i := |s| - |TrimStart(s)|;
      && i + |Trim(s)| <= |s| && Trim(s) == s[i..i + |Trim(s)|]
      && (forall k :: 0 <= k < i ==> IsWhitespace(s[k]))
      && (forall k :: i + |Trim(s)| <= k < |s| ==> IsWhitespace(s[k]))
  {
    var t := TrimStart(s);
    var i := |s| - |t|;
    SliceOfSlice(s, i, |Trim(s)|);
    forall k | i + |Trim(s)| <= k < |s| ensures IsWhitespace(s[k]) {
      assert s[k] == t[k - i];
    }
  }

  lemma SliceOfSlice(s: string, i: nat, n: nat)
    requires i + n <= |s|
    ensures s[i..][..n] == s[i..i + n]
  {
  }

  /** Trimming a string that already neither starts nor ends with whitespace changes nothing. */
  lemma TrimTrimmed(s: string)
    requires s == [] || (!IsWhitespace(s[0]) && !IsWhitespace(s[|s| - 1]))
    ensures Trim(s) == s
  {
  }

  /** Whitespace padding around a trimmed word is exactly what `Trim` removes. */
  lemma TrimPadded(pre: string, word: string, post: string)
    requires forall k :: 0 <= k < |pre| ==> IsWhitespace(pre[k])
    requires forall k :: 0 <= k < |post| ==> IsWhitespace(post[k])
    requires word != [] && !IsWhitespace(word[0]) && !IsWhitespace(word[|word| - 1])
    ensures Trim(pre + word + post) == word
  {
    assert pre + word + post == pre + (word + post);
    TrimStartPadded(pre, word + post);
    TrimEndPadded(word, post);
  }

  lemma {:induction false} TrimStartPadded(pre: string, rest: string)
    requires forall k :: 0 <= k < |pre| ==> IsWhitespace(pre[k])
    requires rest != [] && !IsWhitespace(rest[0])
    ensures TrimStart(pre + rest) == rest
  {
    if pre != [] {
      assert (pre + rest)[1..] == pre[1..] + rest;
      TrimStartPadded(pre[1..], rest);
    } else {
      assert pre + rest == rest;
    }
  }

  lemma {:induction false} TrimEndPadded(rest: string, post: string)
    requires forall k :: 0 <= k < |post| ==> IsWhitespace(post[k])
    requires rest != [] && !IsWhitespace(rest[|rest| - 1])
    ensures TrimEnd(rest + post) == rest
  {
    if post != [] {
      var s := rest + post;
      assert s[..|s| - 1] == rest + post[..|post| - 1];
      TrimEndPadded(rest, post[..|post| - 1]);
    } else {
      assert rest + post == rest;
    }
  }

  /** `s.replace(/\s+/g, '')`: `s` with every whitespace character deleted, the others kept in order. */
  function RemoveWhitespace(s: string): (r: string)
    ensures |r| <= |s|
    ensures NoWhitespace(r)
    ensures forall c :: Lacks(s, c) ==> Lacks(r, c)
    ensures NoWhitespace(s) ==> r == s
  {
    if s == [] then []
    else if IsWhitespace(s[0]) then RemoveWhitespace(s[1..])
    else
      var r := [s[0]] + RemoveWhitespace(s[1..]);
      assert forall c :: Lacks(s, c) ==> Lacks(s[1..], c);
      r
  }

  /** Deleting whitespace works piecewise: on a concatenation it is the concatenation of the results. */
  lemma {:induction false} RemoveWhitespaceConcat(a: string, b: string)
    ensures RemoveWhitespace(a + b) == RemoveWhitespace(a) + RemoveWhitespace(b)
  {
    if a != [] {
      assert (a + b)[1..] == a[1..] + b;
      RemoveWhitespaceConcat(a[1..], b);
    } else {
      assert a + b == b;
    }
  }

  /** `s.indexOf(c)`: the position of the first `c`, or -1 when there is none. */
  function IndexOf(s: string, c: char): (i: int)
    ensures -1 <= i < |s|
    ensures i >= 0 ==> s[i] == c
    ensures forall k :: 0 <= k < (if i >= 0 then i else |s|) ==> s[k] != c
  {
    if s == [] then -1
    else if s[0] == c then 0
    else
      var j := IndexOf(s[1..], c);
      if j < 0 then -1 else j + 1
  }

  /** `s.includes(t)`, computed by scanning `s` from the left. */
  function Includes(s: string, t: string): bool
    decreases |s|
  {
    StartsWith(s, t) || (s != [] && Includes(s[1..], t))
  }

  /** `t` occurs somewhere in `s` as a contiguous block. */
  ghost predicate OccursAt(s: string, t: string, i: int) {
    0 <= i && i + |t| <= |s| && s[i..i + |t|] == t
  }

  lemma {:induction false} IncludesIff(s: string, t: string)
    ensures Includes(s, t) <==> exists i :: OccursAt(s, t, i)
    decreases |s|
  {
    if StartsWith(s, t) {
      assert OccursAt(s, t, 0);
    } else if s == [] {
    } else {
      IncludesIff(s[1..], t);
      if exists i :: OccursAt(s[1..], t, i) {
        var i :| OccursAt(s[1..], t, i);
        assert s[i + 1..i + 1 + |t|] == s[1..][i..i + |t|];
        assert OccursAt(s, t, i + 1);
      }
      if exists i :: OccursAt(s, t, i) {
        var i :| OccursAt(s, t, i);
        assert i != 0;
        assert s[1..][i - 1..i - 1 + |t|] == s[i..i + |t|];
        assert OccursAt(s[1..], t, i - 1);
      }
    }
  }

  /** `s.split(sep)` for a one-character separator: the pieces between separators, at least one. */
  function Split(s: string, sep: char): (parts: seq<string>)
    ensures |parts| >= 1
    ensures forall i :: 0 <= i < |parts| ==> sep !in parts[i]
    decreases |s|
  {
    var i := IndexOf(s, sep);
    if i < 0 then [s] else [s[..i]] + Split(s[i + 1..], sep)
  }

  /** `parts.join(sep)`. */
  function Join(parts: seq<string>, sep: char): string
    requires |parts| >= 1
  {
    if |parts| == 1 then parts[0] else parts[0] + [sep] + Join(parts[1..], sep)
  }

  /** Splitting loses nothing: joining the pieces with the separator gives back the string. */
  lemma {:induction false} JoinSplit(s: string, sep: char)
    ensures Join(Split(s, sep), sep) == s
    decreases |s|
  {
    var i := IndexOf(s, sep);
    if i >= 0 {
      var rest := Split(s[i + 1..], sep);
      JoinSplit(s[i + 1..], sep);
      JoinCons(s[..i], rest, sep);
      Reassemble(s, i, sep);
    }
  }

  lemma JoinCons(head: string, rest: seq<string>, sep: char)
    requires |rest| >= 1
    ensures Join([head] + rest, sep) == head + [sep] + Join(rest, sep)
  {
    assert ([head] + rest)[1..] == rest;
  }

  lemma Reassemble(s: string, i: nat, sep: char)
    requires i < |s| && s[i] == sep
    ensures s[..i] + [sep] + s[i + 1..] == s
  {
  }

  /** `c.toLowerCase()` on the ASCII letters; every other character is kept. */
  function LowerAscii(c: char): (d: char)
    ensures 'A' <= c <= 'Z' ==> 'a' <= d <= 'z'
    ensures !('A' <= c <= 'Z') ==> d == c
  {
    if 'A' <= c <= 'Z' then (c as int + 32) as char else c
  }

  function ToLower(s: string): (r: string)
    ensures |r| == |s| && forall i :: 0 <= i < |s| ==> r[i] == LowerAscii(s[i])
  {
    if s == [] then [] else [LowerAscii(s[0])] + ToLower(s[1..])
  }
}

=== FILE: monitor.dfy ===
/**
 * The connection monitor's periodic tick: every registered client is asked for
 * its connection state and its account status is reconciled with the answer; a
 * failure that shows the browser session has closed asks for a restart.
 */
module ConnectionMonitor {
  import opened JsString
  import opened Entities
  import opened ClientManager

  /** What `client.getState()` gives for one client: no such method, a state name, or a thrown error. */
  datatype Probe = NoGetState | State(state: string) | Threw(message: string)

  const ConnectedState: string := "CONNECTED"

  /** The fault that makes the monitor schedule `process.exit(1)`. */
  predicate IsClosedBrowserSession(message: string) {
    Includes(message, "Protocol error") && Includes(message, "Runtime.callFunctionOn") && Includes(message, "Session closed")
  }

  /** The fatal-fault test holds exactly when each of the three phrases occurs somewhere in the message. */
  lemma ClosedBrowserSessionIff(message: string)
    ensures IsClosedBrowserSession(message) <==>
      && (exists i :: OccursAt(message, "Protocol error", i))
      && (exists i :: OccursAt(message, "Runtime.callFunctionOn", i))
      && (exists i :: OccursAt(message, "Session closed", i))
  {
    IncludesIff(message, "Protocol error");
    IncludesIff(message, "Runtime.callFunctionOn");
    IncludesIff(message, "Session closed");
  }

  /** The status a reported state leads to: READY when CONNECTED, DISCONNECTED for any other state. */
  function Reconcile(acc: Account, state: string): (r: Account)
    ensures r.status == (if state == ConnectedState then Ready else Disconnected)
    ensures r == acc.(status := r.status)
  {
    if state == ConnectedState then acc.(status := Ready) else acc.(status := Disconnected)
  }

  /** The account table after a tick over the `registered` ids. */
  function TickAccounts(accounts: map<string, Account>, registered: set<string>, probe: string -> Probe): (r: map<string, Account>)
    ensures r.Keys == accounts.Keys
    ensures forall id :: id in accounts && id !in registered ==> r[id] == accounts[id]
    ensures forall id :: id in accounts && id in registered && !probe(id).State? ==> r[id] == accounts[id]
    ensures forall id :: id in accounts && id in registered && probe(id) == State(ConnectedState) ==> r[id] == accounts[id].(status := Ready)
    ensures forall id :: id in accounts && id in registered && probe(id).State? && probe(id).state != ConnectedState ==>
      r[id] == accounts[id].(status := Disconnected)
  {
    map id | id in accounts :: if id in registered && probe(id).State? then Reconcile(accounts[id], probe(id).state) else accounts[id]
  }

  /** Whether the tick over `registered` meets the closed-browser fault (and so schedules a restart). */
  predicate TickFatal(registered: set<string>, probe: string -> Probe) {
    exists id :: id in registered && probe(id).Threw? && IsClosedBrowserSession(probe(id).message)
  }

  /** The body of the tick loop for one id: reconcile its row (if any) or report whether its error is fatal. */
  method CheckOne(cm: Manager, id: string, p: Probe) returns (fatal: bool)
    requires cm.Valid()
    modifies cm`accounts
    ensures cm.Valid()
    ensures fatal <==> p.Threw? && IsClosedBrowserSession(p.message)
    ensures p.State? && id in old(cm.accounts) ==> cm.accounts == old(cm.accounts)[id := Reconcile(old(cm.accounts)[id], p.state)]
    ensures !(p.State? && id in old(cm.accounts)) ==> cm.accounts == old(cm.accounts)
  {
    fatal := false;
    match p {
      case NoGetState =>
      case State(s) =>
        if id in cm.accounts {
          cm.accounts := cm.accounts[id := Reconcile(cm.accounts[id], s)];
        }
      case Threw(m) =>
        fatal := IsClosedBrowserSession(m);
    }
  }

  /**
   * One tick: visit every id registered when the tick starts; an error for one id
   * does not stop the others. Answers whether a restart was scheduled.
   */
  method Tick(cm: Manager, probe: string -> Probe) returns (fatal: bool)
    requires cm.Valid()
    modifies cm`accounts
    ensures cm.Valid()
    ensures cm.accounts == TickAccounts(old(cm.accounts), old(cm.ListClients()), probe)
    ensures fatal <==> TickFatal(old(cm.ListClients()), probe)
  {
    var ids := cm.ListClients();
    var remaining := ids;
    fatal := false;
    while remaining != {}
      invariant remaining <= ids
      invariant cm.Valid()
      invariant cm.accounts == TickAccounts(old(cm.accounts), ids - remaining, probe)
      invariant fatal <==> TickFatal(ids - remaining, probe)
      decreases remaining
    {
      var id :| id in remaining;
      TickStep(old(cm.accounts), ids - remaining, id, probe);
      VisitOneMore(ids, remaining, id);
      var f := CheckOne(cm, id, probe(id));
      fatal := fatal || f;
      remaining := remaining - {id};
    }
  }

  lemma VisitOneMore(ids: set<string>, remaining: set<string>, id: string)
    requires id in remaining && remaining <= ids
    ensures ids - (remaining - {id}) == (ids - remaining) + {id}
    ensures id !in ids - remaining
  {
  }

  /** Visiting one more id changes only that id's row, and adds only that id's fault. */
  lemma TickStep(accounts: map<string, Account>, done: set<string>, id: string, probe: string -> Probe)
    requires id !in done
    ensures var before := TickAccounts(accounts, done, probe);
      TickAccounts(accounts, done + {id}, probe) ==
        if probe(id).State? && id in accounts then before[id := Reconcile(before[id], probe(id).state)] else before
    ensures TickFatal(done + {id}, probe) <==> TickFatal(done, probe) || (probe(id).Threw? && IsClosedBrowserSession(probe(id).message))
  {
    var before := TickAccounts(accounts, done, probe);
    var after := TickAccounts(accounts, done + {id}, probe);
    if probe(id).State? && id in accounts {
      assert after == before[id := Reconcile(before[id], probe(id).state)];
    } else {
      assert after == before;
    }
  }
}

=== FILE: queues.dfy ===
/**
 * The `sendMessage` delivery queue: `message_jobs` rows keyed by id, the queue
 * as a sequence of `(dbId, delay)` entries, and the worker step that sends one
 * job and, on failure, either schedules a Fibonacci-spaced retry or gives up.
 */
module Queues {
  import opened Wrappers
  import opened Entities
  import opened Fibonacci
  import opened ConfigService

  /** One queued delivery: the job row it refers to and its delay in milliseconds. */
  datatype QueueEntry = QueueEntry(dbId: nat, delay: int)

  /** How `client.sendMessage` (or the `getClient` before it) ended. */
  datatype SendOutcome = Delivered | SendError(message: string)

  const BaseDelayKey: string := "SCHEDULER_BASE_DELAY_MS"
  const MaxAttemptsKey: string := "SCHEDULER_MAX_ATTEMPTS"
  const DefaultBaseDelay: int := 1000
  const DefaultMaxAttempts: int := 3

  /** A job row after the worker has settled it, and the delay of the retry it scheduled, if any. */
  datatype Settled = Settled(row: MessageJob, retryDelay: Option<int>)

  /**
   * The outcome of one delivery attempt on `job`: `sent` on success; on failure one
   * more attempt is counted, and the job is re-queued after `Fib(attempts) * base`
   * milliseconds while the count stays under `cap`, else it is `failed`.
   * The row's own `maxAttempts` is not consulted.
   */
  function Settle(job: MessageJob, outcome: SendOutcome, base: int, cap: int, now: int): (s: Settled)
    ensures s.row.status == Sent || s.row.status == Queued || s.row.status == Failed
    ensures s.row.clientId == job.clientId && s.row.to == job.to && s.row.text == job.text
    ensures s.row.maxAttempts == job.maxAttempts && s.row.broadcastId == job.broadcastId
    ensures outcome.Delivered? ==> s.row == job.(status := Sent, lastError := None) && s.retryDelay.None?
    ensures outcome.SendError? ==> s.row.attempts == job.attempts + 1 && s.row.lastError == Some(outcome.message)
    ensures s.retryDelay.Some? <==> s.row.status == Queued
    ensures s.row.status == Queued ==>
              && s.row.attempts < cap
              && s.retryDelay.value == Fib(s.row.attempts) * base
              && s.row.nextRunAt == Some(now + s.retryDelay.value)
    ensures outcome.SendError? && s.row.attempts >= cap ==> s.row.status == Failed && s.row.nextRunAt == job.nextRunAt
    ensures outcome.SendError? && job.attempts + 1 < cap ==> s.row.status == Queued
  {
    match outcome
    case Delivered => Settled(job.(status := Sent, lastError := None), None)
    case SendError(m) =>
      var attempts := job.attempts + 1;
      if attempts < cap then
        var delay := Fib(attempts) * base;
        Settled(job.(status := Queued, attempts := attempts, lastError := Some(m), nextRunAt := Some(now + delay)), Some(delay))
      else
        Settled(job.(status := Failed, attempts := attempts, lastError := Some(m)), None)
  }

  /** With a cap of 3 and base delay `b`, a fresh job that keeps failing waits `b`, then `2b`, then fails. */
  lemma ThreeFailures(job: MessageJob, b: int, m: string, t1: int, t2: int, t3: int)
    requires job.attempts == 0
    ensures var s1 := Settle(job, SendError(m), b, 3, t1);
      var s2 := Settle(s1.row, SendError(m), b, 3, t2);
      var s3 := Settle(s2.row, SendError(m), b, 3, t3);
      s1.retryDelay == Some(b) && s2.retryDelay == Some(2 * b)
      && s3.retryDelay.None? && s3.row.status == Failed && s3.row.attempts == 3
  {
    assert Fib(1) == 1 && Fib(2) == 2;
  }

  /** With a non-negative base delay, consecutive retries of the same job never wait less. */
  lemma RetryDelaysGrow(job: MessageJob, m1: string, m2: string, base: int, cap: int, t1: int, t2: int)
    requires base >= 0
    requires Settle(job, SendError(m1), base, cap, t1).retryDelay.Some?
    ensures var s1 := Settle(job, SendError(m1), base, cap, t1);
      var s2 := Settle(s1.row, SendError(m2), base, cap, t2);
      s2.retryDelay.Some? ==> s1.retryDelay.value <= s2.retryDelay.value
  {
    var s1 := Settle(job, SendError(m1), base, cap, t1);
    FibMonotone(s1.row.attempts, s1.row.attempts + 1);
    assert Fib(s1.row.attempts) * base <= Fib(s1.row.attempts + 1) * base by {
      MulMonotone(Fib(s1.row.attempts), Fib(s1.row.attempts + 1), base);
    }
  }

  lemma MulMonotone(x: int, y: int, k: int)
    requires x <= y && k >= 0
    ensures x * k <= y * k
  {
  }

  /** The job table and the queue, as values. */
  datatype QueueState = QueueState(jobs: map<nat, MessageJob>, entries: seq<QueueEntry>)

  /** The ids the queue holds entries for. */
  function Pending(entries: seq<QueueEntry>): set<nat> {
    set i | 0 <= i < |entries| :: entries[i].dbId
  }

  /** `entries` without its `k`-th element: the entry the worker has been handed. */
  function Without(entries: seq<QueueEntry>, k: nat): seq<QueueEntry>
    requires k < |entries|
  {
    entries[..k] + entries[k + 1..]
  }

  /** The worker processor for `dbId`: a missing row changes nothing; otherwise the row is settled and a retry appended. */
  function Process(s: QueueState, dbId: nat, outcome: SendOutcome, base: int, cap: int, now: int): (r: QueueState)
    ensures dbId !in s.jobs ==> r == s
    ensures dbId in s.jobs ==> r.jobs == s.jobs[dbId := Settle(s.jobs[dbId], outcome, base, cap, now).row]
    ensures dbId in s.jobs ==>
              var d := Settle(s.jobs[dbId], outcome, base, cap, now).retryDelay;
              r.entries == s.entries + if d.Some? then [QueueEntry(dbId, d.value)] else []
  {
    if dbId !in s.jobs then s
    else
      var settled := Settle(s.jobs[dbId], outcome, base, cap, now);
      QueueState(s.jobs[dbId := settled.row],
        s.entries + if settled.retryDelay.Some? then [QueueEntry(dbId, settled.retryDelay.value)] else [])
  }

  /** One worker step: the queue hands out its `k`-th entry and the processor runs on it. */
  function WorkerStep(s: QueueState, k: nat, outcome: SendOutcome, base: int, cap: int, now: int): QueueState
    requires k < |s.entries|
  {
    Process(QueueState(s.jobs, Without(s.entries, k)), s.entries[k].dbId, outcome, base, cap, now)
  }

  /**
   * The invariant a fixed attempt cap keeps: every entry names a queued row, no row
   * has two entries, every queued row has one, no row is left `processing`, and a
   * queued row has used fewer attempts than the cap.
   */
  ghost predicate Consistent(s: QueueState, cap: int) {
    && (forall i :: 0 <= i < |s.entries| ==> s.entries[i].dbId in s.jobs && s.jobs[s.entries[i].dbId].status == Queued)
    && (forall i, j :: 0 <= i < j < |s.entries| ==> s.entries[i].dbId != s.entries[j].dbId)
    && (forall id :: id in s.jobs && s.jobs[id].status == Queued ==> id in Pending(s.entries))
    && (forall id :: id in s.jobs ==> s.jobs[id].status != Processing)
    && (forall id :: id in s.jobs && s.jobs[id].status == Queued ==> s.jobs[id].attempts < cap)
  }

  lemma WithoutEntries(entries: seq<QueueEntry>, k: nat)
    requires k < |entries|
    requires forall i, j :: 0 <= i < j < |entries| ==> entries[i].dbId != entries[j].dbId
    ensures forall i, j :: 0 <= i < j < |Without(entries, k)| ==> Without(entries, k)[i].dbId != Without(entries, k)[j].dbId
    ensures Pending(Without(entries, k)) == Pending(entries) - {entries[k].dbId}
  {
    var w := Without(entries, k);
    assert forall i :: 0 <= i < |w| ==> w[i] == entries[if i < k then i else i + 1];
    forall id | id in Pending(entries) - {entries[k].dbId}
      ensures id in Pending(w)
    {
      var i :| 0 <= i < |entries| && entries[i].dbId == id;
      assert w[if i < k then i else i - 1].dbId == id;
    }
  }

  lemma AppendEntry(entries: seq<QueueEntry>, e: QueueEntry)
    requires forall i, j :: 0 <= i < j < |entries| ==> entries[i].dbId != entries[j].dbId
    requires e.dbId !in Pending(entries)
    ensures forall i, j :: 0 <= i < j < |entries + [e]| ==> (entries + [e])[i].dbId != (entries + [e])[j].dbId
    ensures Pending(entries + [e]) == Pending(entries) + {e.dbId}
  {
    var x := entries + [e];
    assert forall i :: 0 <= i < |entries| ==> x[i] == entries[i];
    assert x[|entries|] == e;
    forall id | id in Pending(entries) ensures id in Pending(x) {
      var i :| 0 <= i < |entries| && entries[i].dbId == id;
      assert x[i].dbId == id;
    }
  }

  /** A worker step keeps the queue consistent, whatever the send outcome. */
  lemma WorkerStepPreserves(s: QueueState, k: nat, outcome: SendOutcome, base: int, cap: int, now: int)
    requires k < |s.entries| && Consistent(s, cap)
    ensures Consistent(WorkerStep(s, k, outcome, base, cap, now), cap)
  {
    var id := s.entries[k].dbId;
    var w := Without(s.entries, k);
    WithoutEntries(s.entries, k);
    var settled := Settle(s.jobs[id], outcome, base, cap, now);
    var r := WorkerStep(s, k, outcome, base, cap, now);
    assert r.jobs == s.jobs[id := settled.row];
    if settled.retryDelay.Some? {
      AppendEntry(w, QueueEntry(id, settled.retryDelay.value));
      assert r.entries == w + [QueueEntry(id, settled.retryDelay.value)];
    } else {
      assert r.entries == w;
      assert id !in Pending(r.entries);
    }
    assert forall i :: 0 <= i < |r.entries| ==> r.entries[i].dbId in Pending(r.entries);
  }

  /** Submitting a new job (row created `queued` with no attempts, then enqueued) keeps the queue consistent when the cap is positive. */
  lemma SubmitPreserves(s: QueueState, id: nat, job: MessageJob, delay: int, cap: int)
    requires Consistent(s, cap) && cap >= 1
    requires id !in s.jobs && job.status == Queued && job.attempts == 0
    ensures Consistent(QueueState(s.jobs[id := job], s.entries + [QueueEntry(id, delay)]), cap)
  {
    assert id !in Pending(s.entries);
    AppendEntry(s.entries, QueueEntry(id, delay));
    var r := QueueState(s.jobs[id := job], s.entries + [QueueEntry(id, delay)]);
    assert forall i :: 0 <= i < |r.entries| ==> r.entries[i].dbId in Pending(r.entries);
  }

  /** The job table and the `sendMessage` queue, updated in place by the server and the worker. */
  class JobQueue {
    var jobs: map<nat, MessageJob>
    var nextId: nat
    var entries: seq<QueueEntry>

    /** Generated ids are fresh: every row id lies below the next one. */
    ghost predicate Valid()
      reads this
    {
      forall id :: id in jobs ==> id < nextId
    }

    function State(): QueueState
      reads this
    {
      QueueState(jobs, entries)
    }

    constructor()
      ensures Valid() && jobs == map[] && entries == [] && nextId == 0
    {
      jobs := map[];
      nextId := 0;
      entries := [];
    }

    /** `repo.save(repo.create(row))`: a new row under a fresh generated id. */
    method CreateJob(job: MessageJob) returns (id: nat)
      requires Valid()
      modifies this`jobs, this`nextId
      ensures Valid()
      ensures id !in old(jobs) && jobs == old(jobs)[id := job]
      ensures unchanged(this`entries)
    {
      id := nextId;
      jobs := jobs[id := job];
      nextId := nextId + 1;
    }

    /** `enqueueMessage(dbId, delay)`: exactly one entry is appended; earlier entries are untouched. */
    method EnqueueMessage(dbId: nat, delay: int)
      modifies this`entries
      ensures entries == old(entries) + [QueueEntry(dbId, delay)]
    {
      entries := entries + [QueueEntry(dbId, delay)];
    }

    /**
     * The worker processor for a delivery of `dbId`. The row is marked `processing`,
     * the send is attempted, and on failure the base delay and the cap are read
     * from the configuration with the environment values (or 1000 and 3) as defaults.
     */
    method ProcessJob(dbId: nat, outcome: SendOutcome, store: ConfigStore, envBase: Option<int>, envCap: Option<int>,
                      now: int, parse: string -> Option<int>)
      modifies this`jobs, this`entries
      ensures State() == Process(old(State()), dbId, outcome,
        store.GetNumberConfig(BaseDelayKey, envBase.GetOr(DefaultBaseDelay), parse),
        store.GetNumberConfig(MaxAttemptsKey, envCap.GetOr(DefaultMaxAttempts), parse), now)
    {
      if dbId !in jobs {
        return;
      }
      var row := jobs[dbId];
      jobs := jobs[dbId := row.(status := Processing)];
      match outcome {
        case Delivered =>
          jobs := jobs[dbId := row.(status := Sent, lastError := None)];
        case SendError(m) =>
          var base := store.GetNumberConfig(BaseDelayKey, envBase.GetOr(DefaultBaseDelay), parse);
          var cap := store.GetNumberConfig(MaxAttemptsKey, envCap.GetOr(DefaultMaxAttempts), parse);
          var attempts := row.attempts + 1;
          if attempts < cap {
            var f := Fibonacci.Fibonacci(attempts);
            var delay := f * base;
            jobs := jobs[dbId := row.(status := Queued, attempts := attempts, lastError := Some(m), nextRunAt := Some(now + delay))];
            EnqueueMessage(dbId, delay);
          } else {
            jobs := jobs[dbId := row.(status := Failed, attempts := attempts, lastError := Some(m))];
          }
      }
    }

    /** The queue hands its `k`-th entry to the worker, which processes it. */
    method Work(k: nat, outcome: SendOutcome, store: ConfigStore, envBase: Option<int>, envCap: Option<int>,
                now: int, parse: string -> Option<int>)
      requires k < |entries|
      modifies this`jobs, this`entries
      ensures State() == WorkerStep(old(State()), k, outcome,
        store.GetNumberConfig(BaseDelayKey, envBase.GetOr(DefaultBaseDelay), parse),
        store.GetNumberConfig(MaxAttemptsKey, envCap.GetOr(DefaultMaxAttempts), parse), now)
    {
      var entry := entries[k];
      entries := Without(entries, k);
      ProcessJob(entry.dbId, outcome, store, envBase, envCap, now, parse);
    }
  }
}

=== FILE: server.dfy ===
/**
 * The request decisions of the HTTP API: the API-key gate, the DISCONNECTED
 * guard of the start and session routes, the validation and fan-out of
 * `/messages`, `/automation/reply` and `/broadcasts` into job rows and queue
 * entries, broadcast statistics, and the page size of `/inbound`.
 * Request fields that are missing, null or empty are "".
 */
module Server {
  import opened Wrappers
  import opened JsString
  import opened Entities
  import opened ConfigService
  import opened Automation
  import opened Queues
  import opened ClientManager

  /** The status a handler answers with; `NoReply` when it throws and no response is sent. */
  datatype Reply = Ok | Created | BadRequest | Unauthorized | NotFound | Conflict | NoReply

  /** Paths the gate lets through without a key. */
  predicate IsPublicPath(path: string) {
    path == "/health" || path == "/openapi.json" || StartsWith(path, "/docs") || path == "/automation/reply"
  }

  /** The gate's verdict for a path, the key it expects ("" when none is configured) and the `x-api-key` header. */
  function KeyDecision(path: string, expected: string, provided: Option<string>): (pass: bool)
    ensures pass <==> IsPublicPath(path) || (expected != "" && provided == Some(expected))
    ensures !IsPublicPath(path) && expected == "" ==> !pass
  {
    if IsPublicPath(path) then true
    else if expected == "" then false
    else provided == Some(expected)
  }

  /** The API-key middleware and the key it caches: the environment's `API_KEY`, else the config row, loaded on demand. */
  class ApiKeyGate {
    var cachedKey: string

    constructor(envKey: string)
      ensures cachedKey == envKey
    {
      cachedKey := envKey;
    }

    /**
     * One request through the middleware. A public path passes without touching
     * the cache; otherwise an empty cache is filled from the config table, and the
     * request passes exactly when a key is known and the header equals it.
     */
    method Admit(path: string, provided: Option<string>, store: ConfigStore) returns (pass: bool)
      modifies this
      ensures IsPublicPath(path) || old(cachedKey) != "" ==> cachedKey == old(cachedKey)
      ensures !IsPublicPath(path) && old(cachedKey) == "" ==> cachedKey == store.GetConfig("API_KEY", None).GetOr("")
      ensures pass == KeyDecision(path, cachedKey, provided)
    {
      if IsPublicPath(path) {
        return true;
      }
      if cachedKey == "" {
        cachedKey := store.GetConfig("API_KEY", None).GetOr("");
      }
      pass := KeyDecision(path, cachedKey, provided);
    }
  }

  /** `POST /accounts/:clientId/start`: 409 on a DISCONNECTED row without starting anything; 400 when the start throws. */
  method StartRoute(cm: Manager, clientId: string, initOk: bool) returns (reply: Reply)
    requires cm.Valid()
    modifies cm`clients, cm`nextSerial, cm`destroyed, cm`accounts
    ensures cm.Valid()
    ensures !AllowsAutoStart(old(cm.accounts), clientId) ==>
      reply == Conflict && cm.clients == old(cm.clients) && cm.accounts == old(cm.accounts)
    ensures AllowsAutoStart(old(cm.accounts), clientId) ==>
      && clientId in cm.accounts
      && (reply == Ok <==> clientId in old(cm.clients) || initOk)
      && (reply != Ok ==> reply == BadRequest)
      && (reply == Ok ==> clientId in cm.clients)
      && cm.clients == StartedClients(old(cm.clients), old(cm.accounts), old(cm.nextSerial), clientId, initOk)
      && cm.accounts == EnsuredAccounts(old(cm.accounts), clientId)
  {
    if clientId in cm.accounts && cm.accounts[clientId].status == Disconnected {
      return Conflict;
    }
    var r := cm.StartClient(clientId, false, initOk);
    reply := if r.Success? then Ok else BadRequest;
  }

  /** `POST /sessions`: 400 without a client id, 409 on a DISCONNECTED row, else the session is started (a failed start throws unanswered). */
  method CreateSessionRoute(cm: Manager, clientId: string, initOk: bool) returns (reply: Reply, row: Option<Account>)
    requires cm.Valid()
    modifies cm`clients, cm`nextSerial, cm`destroyed, cm`accounts
    ensures cm.Valid()
    ensures clientId == "" ==> reply == BadRequest && cm.clients == old(cm.clients) && cm.accounts == old(cm.accounts)
    ensures clientId != "" && !AllowsAutoStart(old(cm.accounts), clientId) ==>
      reply == Conflict && cm.clients == old(cm.clients) && cm.accounts == old(cm.accounts)
    ensures reply == Created <==> clientId != "" && AllowsAutoStart(old(cm.accounts), clientId) && (clientId in old(cm.clients) || initOk)
    ensures reply == Created ==> clientId in cm.clients && row == Some(cm.accounts[clientId])
    ensures clientId != "" && AllowsAutoStart(old(cm.accounts), clientId) ==>
      && cm.clients == StartedClients(old(cm.clients), old(cm.accounts), old(cm.nextSerial), clientId, initOk)
      && cm.accounts == EnsuredAccounts(old(cm.accounts), clientId)
  {
    row := None;
    if clientId == "" {
      return BadRequest, None;
    }
    if clientId in cm.accounts && cm.accounts[clientId].status == Disconnected {
      return Conflict, None;
    }
    var r := cm.StartClient(clientId, false, initOk);
    if r.Failure? {
      return NoReply, None;
    }
    reply, row := Created, Some(cm.accounts[clientId]);
  }

  /**
   * `POST /accounts/:clientId/reconnect` (and its `/sessions` alias): the forced
   * reconnect answers 200 with the reset row, or 400 when the start throws.
   */
  method ReconnectRoute(cm: Manager, clientId: string, initOk: bool) returns (reply: Reply, row: Option<Account>)
    requires cm.Valid()
    modifies cm`clients, cm`nextSerial, cm`destroyed, cm`accounts
    ensures cm.Valid()
    ensures AllowsAutoStart(cm.accounts, clientId)
    ensures reply == Ok <==> initOk
    ensures reply != Ok ==> reply == BadRequest && row.None?
    ensures reply == Ok ==> clientId in cm.clients && row == Some(cm.accounts[clientId]) && row.value.status == Initializing
    ensures cm.accounts == old(cm.accounts)[clientId := if clientId in old(cm.accounts)
      then old(cm.accounts)[clientId].(status := Initializing, lastQr := None) else FreshAccount]
    ensures cm.clients == if initOk then (old(cm.clients) - {clientId})[clientId := Handle(old(cm.nextSerial))]
      else old(cm.clients) - {clientId}
    ensures cm.destroyed == old(cm.destroyed) + (if clientId in old(cm.clients) then [old(cm.clients)[clientId]] else [])
  {
    var r := cm.ReconnectSession(clientId, initOk);
    if r.Failure? {
      return BadRequest, None;
    }
    reply, row := Ok, Some(r.value);
  }

  /** `String(number || phone || to || '').trim()`: the first non-empty query parameter, trimmed. */
  function NumberParam(number: string, phone: string, to: string): (p: string)
    ensures number != "" ==> p == Trim(number)
    ensures number == "" && phone != "" ==> p == Trim(phone)
    ensures number == "" && phone == "" ==> p == Trim(to)
    ensures p != "" ==> !IsWhitespace(p[0]) && !IsWhitespace(p[|p| - 1])
  {
    var given := if number != "" then number else if phone != "" then phone else to;
    Trim(given)
  }

  /**
   * `GET /accounts/:clientId/validate-number`: 400 when no number is given, when the
   * client cannot be started, or when the lookup fails; otherwise 200 with the validation.
   */
  method ValidateNumberRoute(cm: Manager, clientId: string, number: string, phone: string, to: string, initOk: bool,
                             byId: NumberLookup, fallback: RegisteredLookup)
    returns (reply: Reply, result: Option<Validation>)
    requires cm.Valid()
    modifies cm`clients, cm`nextSerial, cm`destroyed, cm`accounts
    ensures cm.Valid()
    ensures NumberParam(number, phone, to) == "" ==> reply == BadRequest && cm.clients == old(cm.clients) && cm.accounts == old(cm.accounts)
    ensures reply == Ok <==>
      && NumberParam(number, phone, to) != ""
      && (clientId in old(cm.clients) || (AllowsAutoStart(old(cm.accounts), clientId) && initOk))
      && ValidationOf(NumberParam(number, phone, to), byId, fallback).Success?
    ensures reply != Ok ==> reply == BadRequest && result.None?
    ensures reply == Ok ==> result == Some(ValidationOf(NumberParam(number, phone, to), byId, fallback).value)
    ensures NumberParam(number, phone, to) != "" ==>
      && cm.clients == StartedClients(old(cm.clients), old(cm.accounts), old(cm.nextSerial), clientId, initOk)
      && cm.accounts == EnsuredAccounts(old(cm.accounts), clientId)
  {
    var input := NumberParam(number, phone, to);
    if input == "" {
      return BadRequest, None;
    }
    var started := cm.StartClient(clientId, false, initOk);
    if started.Failure? {
      return BadRequest, None;
    }
    var r := cm.ValidateWhatsAppNumber(clientId, input, initOk, byId, fallback);
    if r.Failure? {
      return BadRequest, None;
    }
    reply, result := Ok, Some(r.value);
  }

  /** Submit one message: a `queued` row with no attempts, then one queue entry with delay 0. */
  method Submit(q: JobQueue, job: MessageJob) returns (id: nat)
    requires q.Valid()
    modifies q
    ensures q.Valid()
    ensures id !in old(q.jobs) && q.jobs == old(q.jobs)[id := job]
    ensures q.entries == old(q.entries) + [QueueEntry(id, 0)]
  {
    id := q.CreateJob(job);
    q.EnqueueMessage(id, 0);
  }

  /**
   * `POST /messages`: 400 unless clientId, to and text are all given; otherwise the
   * client is started (a failed start throws unanswered) and the message submitted.
   */
  method PostMessage(cm: Manager, q: JobQueue, clientId: string, to: string, text: string, maxAttempts: Option<int>, initOk: bool)
    returns (reply: Reply, id: Option<nat>)
    requires cm.Valid() && q.Valid()
    modifies cm`clients, cm`nextSerial, cm`destroyed, cm`accounts, q
    ensures cm.Valid() && q.Valid()
    ensures clientId == "" || to == "" || text == "" ==> reply == BadRequest && id.None? && q.jobs == old(q.jobs) && q.entries == old(q.entries)
    ensures reply == Created <==>
      && clientId != "" && to != "" && text != ""
      && (clientId in old(cm.clients) || (AllowsAutoStart(old(cm.accounts), clientId) && initOk))
    ensures reply != Created ==> id.None? && q.jobs == old(q.jobs) && q.entries == old(q.entries)
    ensures reply == Created ==>
      && id.Some? && id.value !in old(q.jobs)
      && q.jobs == old(q.jobs)[id.value := NewJob(clientId, to, text, maxAttempts, None)]
      && q.entries == old(q.entries) + [QueueEntry(id.value, 0)]
    ensures reply == Created ==> clientId in cm.clients
    ensures clientId == "" || to == "" || text == "" ==> cm.clients == old(cm.clients) && cm.accounts == old(cm.accounts)
    ensures clientId != "" && to != "" && text != "" ==>
      && cm.clients == StartedClients(old(cm.clients), old(cm.accounts), old(cm.nextSerial), clientId, initOk)
      && cm.accounts == EnsuredAccounts(old(cm.accounts), clientId)
  {
    if clientId == "" || to == "" || text == "" {
      return BadRequest, None;
    }
    var r := cm.StartClient(clientId, false, initOk);
    if r.Failure? {
      return NoReply, None;
    }
    var n := Submit(q, NewJob(clientId, to, text, maxAttempts, None));
    reply, id := Created, Some(n);
  }

  /**
   * `POST /config`: 400 without a key; otherwise `setConfig(key, String(value))`, so a
   * missing value is stored as the text `undefined`.
   */
  method PostConfig(store: ConfigStore, key: string, value: Option<string>) returns (reply: Reply, row: Option<ConfigRow>)
    modifies store
    ensures key == "" ==> reply == BadRequest && row.None? && store.rows == old(store.rows)
    ensures key != "" ==>
      var text := if value.Some? then value.value else "undefined";
      && reply == Ok && row == Some(ConfigRow(key, Some(text)))
      && store.rows == old(store.rows)[key := Some(text)]
      && store.GetConfig(key, None) == Some(text)
  {
    if key == "" {
      return BadRequest, None;
    }
    var saved := store.SetConfig(key, Some(if value.Some? then value.value else "undefined"));
    reply, row := Ok, Some(saved);
  }

  /**
   * `POST /automation/reply`: 400 unless clientId, to and text are given; 401 unless a
   * secret resolves for the client and the `x-automation-secret` header equals it;
   * then the message is submitted as on `/messages` (a failed start answers 400).
   */
  method AutomationReply(cm: Manager, q: JobQueue, store: ConfigStore, clientId: string, to: string, text: string,
                         maxAttempts: Option<int>, provided: Option<string>, initOk: bool)
    returns (reply: Reply, id: Option<nat>)
    requires cm.Valid() && q.Valid()
    modifies cm`clients, cm`nextSerial, cm`destroyed, cm`accounts, q
    ensures cm.Valid() && q.Valid()
    ensures clientId != "" && to != "" && text != "" ==>
      var secret := AutomationConfigOf(store.rows, clientId).secret;
      (secret.None? || provided != secret ==> reply == Unauthorized)
    ensures clientId == "" || to == "" || text == "" ==> reply == BadRequest
    ensures reply == Created <==>
      && clientId != "" && to != "" && text != ""
      && AutomationConfigOf(store.rows, clientId).secret.Some? && provided == AutomationConfigOf(store.rows, clientId).secret
      && (clientId in old(cm.clients) || (AllowsAutoStart(old(cm.accounts), clientId) && initOk))
    ensures reply == Created ==> clientId in cm.clients
    ensures reply in {Created, BadRequest, Unauthorized}
    ensures clientId == "" || to == "" || text == "" || reply == Unauthorized ==> cm.clients == old(cm.clients) && cm.accounts == old(cm.accounts)
    ensures (clientId != "" && to != "" && text != ""
             && AutomationConfigOf(store.rows, clientId).secret.Some? && provided == AutomationConfigOf(store.rows, clientId).secret) ==>
      && cm.clients == StartedClients(old(cm.clients), old(cm.accounts), old(cm.nextSerial), clientId, initOk)
      && cm.accounts == EnsuredAccounts(old(cm.accounts), clientId)
    ensures reply != Created ==> id.None? && q.jobs == old(q.jobs) && q.entries == old(q.entries)
    ensures reply == Created ==>
      && id.Some? && id.value !in old(q.jobs)
      && q.jobs == old(q.jobs)[id.value := NewJob(clientId, to, text, maxAttempts, None)]
      && q.entries == old(q.entries) + [QueueEntry(id.value, 0)]
  {
    if clientId == "" || to == "" || text == "" {
      return BadRequest, None;
    }
    var cfg := GetAutomationConfig(store, clientId);
    if cfg.secret.None? || provided != cfg.secret {
      return Unauthorized, None;
    }
    var r := cm.StartClient(clientId, false, initOk);
    if r.Failure? {
      return BadRequest, None;
    }
    var n := Submit(q, NewJob(clientId, to, text, maxAttempts, None));
    reply, id := Created, Some(n);
  }

  /** `Math.min(Number(limit || 50), 200)`; None stands for NaN (a limit that does not parse). */
  function InboundTake(limit: string, parse: string -> Option<int>): (take: Option<int>)
    ensures take.Some? ==> take.value <= 200
    ensures limit == "" ==> take == Some(50)
    ensures limit != "" && parse(limit).Some? ==> take == Some(if parse(limit).value < 200 then parse(limit).value else 200)
  {
    if limit == "" then Some(50)
    else match parse(limit)
      case None => None
      case Some(n) => Some(if n < 200 then n else 200)
  }

  /** The `broadcasts` table. */
  class BroadcastStore {
    var broadcasts: map<nat, Broadcast>
    var nextId: nat

    ghost predicate Valid()
      reads this
    {
      forall id :: id in broadcasts ==> id < nextId
    }

    constructor()
      ensures Valid() && broadcasts == map[]
    {
      broadcasts := map[];
      nextId := 0;
    }

    method Create(b: Broadcast) returns (id: nat)
      requires Valid()
      modifies this
      ensures Valid()
      ensures id !in old(broadcasts) && broadcasts == old(broadcasts)[id := b]
    {
      id := nextId;
      broadcasts := broadcasts[id := b];
      nextId := nextId + 1;
    }

    method SetStatus(id: nat, status: BroadcastStatus)
      requires Valid() && id in broadcasts
      modifies this
      ensures Valid()
      ensures broadcasts == old(broadcasts)[id := old(broadcasts)[id].(status := status)]
    {
      broadcasts := broadcasts[id := broadcasts[id].(status := status)];
    }
  }

  /** The queue entries of a fan-out, in order: one per created row, each with delay 0. */
  function EntriesFor(ids: seq<nat>): (entries: seq<QueueEntry>)
    ensures |entries| == |ids|
    ensures forall k :: 0 <= k < |ids| ==> entries[k] == QueueEntry(ids[k], 0)
  {
    if ids == [] then [] else EntriesFor(ids[..|ids| - 1]) + [QueueEntry(ids[|ids| - 1], 0)]
  }

  lemma AppendAssoc<T>(a: seq<T>, b: seq<T>, x: T)
    ensures a + b + [x] == a + (b + [x])
  {
  }

  /**
   * The loop of `POST /broadcasts`: one `queued` row per recipient, carrying the
   * broadcast id, each enqueued with delay 0, in recipient order.
   */
  method FanOut(q: JobQueue, clientId: string, text: string, recipients: seq<string>, broadcastId: nat) returns (ids: seq<nat>)
    requires q.Valid()
    modifies q
    ensures q.Valid()
    ensures |ids| == |recipients|
    ensures forall k :: 0 <= k < |ids| ==> ids[k] !in old(q.jobs)
    ensures forall k :: 0 <= k < |ids| ==> ids[k] in q.jobs && q.jobs[ids[k]] == NewJob(clientId, recipients[k], text, None, Some(broadcastId))
    ensures forall k, l :: 0 <= k < l < |ids| ==> ids[k] != ids[l]
    ensures forall id :: id in q.jobs <==> id in old(q.jobs) || id in ids
    ensures forall id :: id in old(q.jobs) ==> q.jobs[id] == old(q.jobs)[id]
    ensures q.entries == old(q.entries) + EntriesFor(ids)
  {
    ids := [];
    for i := 0 to |recipients|
      invariant q.Valid()
      invariant |ids| == i
      invariant forall k :: 0 <= k < i ==> ids[k] !in old(q.jobs)
      invariant forall k :: 0 <= k < i ==> ids[k] in q.jobs && q.jobs[ids[k]] == NewJob(clientId, recipients[k], text, None, Some(broadcastId))
      invariant forall k, l :: 0 <= k < l < i ==> ids[k] != ids[l]
      invariant forall id :: id in q.jobs <==> id in old(q.jobs) || id in ids
      invariant forall id :: id in old(q.jobs) ==> q.jobs[id] == old(q.jobs)[id]
      invariant q.entries == old(q.entries) + EntriesFor(ids)
    {
      ghost var before := q.entries;
      var id := Submit(q, NewJob(clientId, recipients[i], text, None, Some(broadcastId)));
      assert (ids + [id])[..i] == ids;
      assert EntriesFor(ids + [id]) == EntriesFor(ids) + [QueueEntry(id, 0)];
      assert q.entries == old(q.entries) + EntriesFor(ids + [id]) by {
        assert before == old(q.entries) + EntriesFor(ids);
        AppendAssoc(old(q.entries), EntriesFor(ids), QueueEntry(id, 0));
      }
      ids := ids + [id];
    }
  }

  /**
   * `POST /broadcasts`: 400 without clientId, text or recipients; otherwise the client
   * is started (a failed start throws unanswered) and the campaign is created.
   */
  method PostBroadcast(cm: Manager, bs: BroadcastStore, q: JobQueue, clientId: string, name: string, text: string,
                       recipients: seq<string>, defaultName: string, initOk: bool)
    returns (reply: Reply, broadcastId: Option<nat>, ids: seq<nat>)
    requires cm.Valid() && bs.Valid() && q.Valid()
    modifies cm`clients, cm`nextSerial, cm`destroyed, cm`accounts, bs, q
    ensures cm.Valid() && bs.Valid() && q.Valid()
    ensures clientId == "" || text == "" || recipients == [] ==> reply == BadRequest
    ensures reply == Created <==>
      && clientId != "" && text != "" && recipients != []
      && (clientId in old(cm.clients) || (AllowsAutoStart(old(cm.accounts), clientId) && initOk))
    ensures reply != Created ==>
      && broadcastId.None? && ids == [] && q.jobs == old(q.jobs) && q.entries == old(q.entries)
      && bs.broadcasts == old(bs.broadcasts)
    ensures clientId == "" || text == "" || recipients == [] ==> cm.clients == old(cm.clients) && cm.accounts == old(cm.accounts)
    ensures clientId != "" && text != "" && recipients != [] ==>
      && cm.clients == StartedClients(old(cm.clients), old(cm.accounts), old(cm.nextSerial), clientId, initOk)
      && cm.accounts == EnsuredAccounts(old(cm.accounts), clientId)
    ensures reply == Created ==>
      && clientId in cm.clients
      && broadcastId.Some?
      && Campaign(old(bs.broadcasts), old(q.jobs), old(q.entries), bs.broadcasts, q.jobs, q.entries,
                  broadcastId.value, ids, clientId, if name != "" then name else defaultName, text, recipients)
  {
    broadcastId, ids := None, [];
    if clientId == "" || text == "" || recipients == [] {
      return BadRequest, None, [];
    }
    var r := cm.StartClient(clientId, false, initOk);
    if r.Failure? {
      return NoReply, None, [];
    }
    var bid;
    bid, ids := CreateBroadcast(bs, q, clientId, if name != "" then name else defaultName, text, recipients);
    reply, broadcastId := Created, Some(bid);
  }

  /**
   * What a created campaign leaves behind: a new `sending` broadcast row, and one new
   * `queued` job row per recipient, in order, carrying the broadcast id, each enqueued
   * once with delay 0; rows that existed before are untouched.
   */
  ghost predicate Campaign(broadcasts0: map<nat, Broadcast>, jobs0: map<nat, MessageJob>, entries0: seq<QueueEntry>,
                           broadcasts: map<nat, Broadcast>, jobs: map<nat, MessageJob>, entries: seq<QueueEntry>,
                           bid: nat, ids: seq<nat>, clientId: string, name: string, text: string, recipients: seq<string>)
  {
    && bid !in broadcasts0
    && broadcasts == broadcasts0[bid := Broadcast(clientId, name, text, Sending)]
    && |ids| == |recipients|
    && (forall k :: 0 <= k < |ids| ==> ids[k] !in jobs0)
    && (forall k :: 0 <= k < |ids| ==> ids[k] in jobs && jobs[ids[k]] == NewJob(clientId, recipients[k], text, None, Some(bid)))
    && (forall k, l :: 0 <= k < l < |ids| ==> ids[k] != ids[l])
    && (forall id :: id in jobs <==> id in jobs0 || id in ids)
    && (forall id :: id in jobs0 ==> jobs[id] == jobs0[id])
    && entries == entries0 + EntriesFor(ids)
  }

  /** The campaign row is saved `queued`, the recipients are fanned out, and the row is saved again as `sending`. */
  method CreateBroadcast(bs: BroadcastStore, q: JobQueue, clientId: string, name: string, text: string, recipients: seq<string>)
    returns (bid: nat, ids: seq<nat>)
    requires bs.Valid() && q.Valid()
    modifies bs, q
    ensures bs.Valid() && q.Valid()
    ensures Campaign(old(bs.broadcasts), old(q.jobs), old(q.entries), bs.broadcasts, q.jobs, q.entries,
                     bid, ids, clientId, name, text, recipients)
  {
    bid := bs.Create(Broadcast(clientId, name, text, BroadcastQueued));
    ids := FanOut(q, clientId, text, recipients, bid);
    bs.SetStatus(bid, Sending);
  }

  /** A broadcast keeps the queue consistent: each new row is `queued` with no attempts and has exactly one entry. */
  lemma CampaignPreserves(broadcasts0: map<nat, Broadcast>, jobs0: map<nat, MessageJob>, entries0: seq<QueueEntry>,
                          broadcasts: map<nat, Broadcast>, jobs: map<nat, MessageJob>, entries: seq<QueueEntry>,
                          bid: nat, ids: seq<nat>, clientId: string, name: string, text: string, recipients: seq<string>, cap: int)
    requires Consistent(QueueState(jobs0, entries0), cap) && cap >= 1
    requires Campaign(broadcasts0, jobs0, entries0, broadcasts, jobs, entries, bid, ids, clientId, name, text, recipients)
    ensures Consistent(QueueState(jobs, entries), cap)
  {
    var n := |entries0|;
    var added := EntriesFor(ids);
    assert forall i :: 0 <= i < n ==> entries[i] == entries0[i];
    assert forall i :: n <= i < |entries| ==> entries[i] == added[i - n];
    forall i | 0 <= i < |entries|
      ensures entries[i].dbId in jobs && jobs[entries[i].dbId].status == Queued
    {
      if i >= n {
        assert entries[i].dbId == ids[i - n];
      }
    }
    forall i, j | 0 <= i < j < |entries|
      ensures entries[i].dbId != entries[j].dbId
    {
      if j >= n {
        assert entries[j].dbId == ids[j - n] && ids[j - n] !in jobs0;
        if i >= n {
          assert entries[i].dbId == ids[i - n];
        }
      }
    }
    forall id | id in jobs && jobs[id].status == Queued
      ensures id in Pending(entries)
    {
      if id in jobs0 {
        var i :| 0 <= i < n && entries0[i].dbId == id;
        assert entries[i].dbId == id;
      } else {
        var k :| 0 <= k < |ids| && ids[k] == id;
        assert entries[n + k].dbId == id;
      }
    }
    forall id | id in jobs
      ensures jobs[id].status != Processing
      ensures jobs[id].status == Queued ==> jobs[id].attempts < cap
    {
      if id !in jobs0 {
        var k :| 0 <= k < |ids| && ids[k] == id;
      }
    }
  }

  /** The counts `GET /broadcasts/:id` reports. */
  datatype Stats = Stats(queued: nat, processing: nat, sent: nat, failed: nat)

  /** `jobs.filter(j => j.status === s).length`. */
  function CountStatus(jobs: seq<MessageJob>, s: JobStatus): (n: nat)
    ensures n <= |jobs|
  {
    if jobs == [] then 0 else (if jobs[0].status == s then 1 else 0) + CountStatus(jobs[1..], s)
  }

  /** The statistics of a broadcast's job rows: every job is counted under exactly one status. */
  function BroadcastStats(jobs: seq<MessageJob>): (st: Stats)
    ensures st.queued + st.processing + st.sent + st.failed == |jobs|
  {
    StatsPartition(jobs);
    Stats(CountStatus(jobs, Queued), CountStatus(jobs, Processing), CountStatus(jobs, Sent), CountStatus(jobs, Failed))
  }

  /** Every job has exactly one of the four statuses, so the counts add up to the number of jobs. */
  lemma {:induction false} StatsPartition(jobs: seq<MessageJob>)
    ensures CountStatus(jobs, Queued) + CountStatus(jobs, Processing) + CountStatus(jobs, Sent) + CountStatus(jobs, Failed) == |jobs|
  {
    if jobs != [] {
      StatsPartition(jobs[1..]);
    }
  }

  /** A freshly fanned-out broadcast reports every job as queued. */
  lemma {:induction false} FreshStats(jobs: seq<MessageJob>)
    requires forall k :: 0 <= k < |jobs| ==> jobs[k].status == Queued
    ensures BroadcastStats(jobs) == Stats(|jobs|, 0, 0, 0)
  {
    if jobs != [] {
      FreshStats(jobs[1..]);
    }
  }
}

=== FILE: worker.dfy ===
/**
 * The `sendMessage` worker as it runs against the client manager: before the send
 * it obtains the job's client with `getClient`, which may start (and so register,
 * and give an account row to) a client that is not running. A `getClient` that
 * throws ends the `try` block like a failed send.
 */
module Worker {
  import opened Wrappers
  import opened Entities
  import opened ConfigService
  import opened Queues
  import opened ClientManager

  /** The message `startClient` throws for a DISCONNECTED account. */
  const DisconnectedMessage: string := "Session is DISCONNECTED. Use reconnect to generate QR."

  /**
   * How the worker's `try` block ends: with the send's own outcome once the client
   * was obtained, else with the error `getClient` threw (`initError` is the message
   * of a failed `initialize()`).
   */
  function DeliveryOutcome(start: Result<Handle, StartError>, initError: string, send: SendOutcome): (o: SendOutcome)
    ensures start.Success? ==> o == send
    ensures start.Failure? ==> o.SendError?
    ensures start == Failure(SessionDisconnected) ==> o == SendError(DisconnectedMessage)
    ensures start == Failure(InitializeFailed) ==> o == SendError(initError)
  {
    match start
    case Success(_) => send
    case Failure(SessionDisconnected) => SendError(DisconnectedMessage)
    case Failure(InitializeFailed) => SendError(initError)
  }

  /** Whether `getClient(clientId)` hands the worker a client. */
  predicate Obtains(clients: map<string, Handle>, accounts: map<string, Account>, clientId: string, initOk: bool) {
    clientId in clients || (AllowsAutoStart(accounts, clientId) && initOk)
  }

  /**
   * The worker handed the queue's `k`-th entry. A missing row leaves the manager
   * alone; otherwise `getClient` runs for the row's client, which ensures an account
   * row (an INITIALIZING one for an id that has none, such as a purged session) and
   * registers a started client, and the row is settled with the combined outcome.
   */
  method Deliver(cm: Manager, q: JobQueue, k: nat, store: ConfigStore, envBase: Option<int>, envCap: Option<int>,
                 now: int, parse: string -> Option<int>, initOk: bool, initError: string, send: SendOutcome)
    requires cm.Valid() && k < |q.entries|
    modifies cm`clients, cm`nextSerial, cm`destroyed, cm`accounts, q`jobs, q`entries
    ensures cm.Valid()
    ensures old(q.entries[k].dbId) !in old(q.jobs) ==>
      && cm.clients == old(cm.clients) && cm.accounts == old(cm.accounts)
      && q.State() == WorkerStep(old(q.State()), k, send,
           store.GetNumberConfig(BaseDelayKey, envBase.GetOr(DefaultBaseDelay), parse),
           store.GetNumberConfig(MaxAttemptsKey, envCap.GetOr(DefaultMaxAttempts), parse), now)
    ensures old(q.entries[k].dbId) in old(q.jobs) ==>
      var id := old(q.jobs[q.entries[k].dbId].clientId);
      && id in cm.accounts
      && (id !in old(cm.accounts) ==> cm.accounts == old(cm.accounts)[id := FreshAccount])
      && (id in old(cm.accounts) ==> cm.accounts == old(cm.accounts))
      && (Obtains(old(cm.clients), old(cm.accounts), id, initOk) <==> id in cm.clients)
      && q.State() == WorkerStep(old(q.State()), k,
           if Obtains(old(cm.clients), old(cm.accounts), id, initOk) then send
           else SendError(if AllowsAutoStart(old(cm.accounts), id) then initError else DisconnectedMessage),
           store.GetNumberConfig(BaseDelayKey, envBase.GetOr(DefaultBaseDelay), parse),
           store.GetNumberConfig(MaxAttemptsKey, envCap.GetOr(DefaultMaxAttempts), parse), now)
  {
    var dbId := q.entries[k].dbId;
    var outcome := send;
    if dbId in q.jobs {
      var start := cm.GetClient(q.jobs[dbId].clientId, initOk);
      outcome := DeliveryOutcome(start, initError, send);
    }
    q.Work(k, outcome, store, envBase, envCap, now, parse);
  }
}

=== FILE: wrappers.dfy ===
/** Option and Result values standing for JavaScript's null and for thrown errors. */
module Wrappers {

  datatype Option<+T> = None | Some(value: T) {
    function GetOr(default: T): T {
      match this
      case Some(v) => v
      case None => default
    }
  }

  datatype Result<+R, +E> = Success(value: R) | Failure(error: E)
}
